=== FILE: README.md ===
# song-of-the-day, modelled in Dafny

song-of-the-day is a command-line tool. It signs in to Spotify, collects
every track in the user's library and picks one "song of the day" at random,
avoiding songs it picked recently. This project models the tool's decision
logic as pure Dafny functions and proves properties about them:

- **Selection** (`selector.dfy`, from song-selector.js):
  - the empty-library error;
  - the filter on the play history;
  - the reset when every song has been played;
  - the random pick;
  - the history file, kept to its 100 most recent plays.
- **Library aggregation** (`fetcher.dfy` and `tracks.dfy`, from song-fetcher.js):
  - offset pagination, which stops on an empty or short page;
  - normalisation of raw items, skipping null tracks;
  - the walk over the user's own playlists;
  - a sub-fetch that starts over after a successful token refresh;
  - first-occurrence deduplication by id.
- **Retry with exponential backoff** (`backoff.dfy`, from utils.js and the RETRY constants of config.js).
- **Authentication decisions** (`auth.dfy`, from spotify-auth.js):
  - which required settings are missing;
  - the expiry test on a stored credential;
  - the credential records written on refresh and on code exchange;
  - the classification of callback requests;
  - the http or https choice;
  - the listener port taken from the redirect URI.
- **The error hierarchy** (`errors.dfy`, from errors.js), as one datatype.

`wrappers.dfy` holds `Option` and `Result`. `text.dfy` holds the string
operations the source gets from JavaScript: decimal rendering and parsing,
`startsWith`, `includes` and `join`.

Everything the source does through the outside world is a parameter:

- **The environment** is a map from names to values.
- **The token file and the history file** are values. An operation takes a file's state before it runs and returns its state afterwards.
- **The clock** is a natural number of milliseconds, `now`.
- **`Math.random()`** is `draw / 2^53` for a natural `draw < 2^53`.
- **The retried operation** in `retryWithBackoff` is a function from the attempt number to a returned value or a thrown error.
- **The Spotify API** is a script of replies:
  - a page reply for each page request;
  - the reply to `getMe()` for each playlist visited;
  - the reply of the refresh endpoint for each run of a sub-fetch;
  - the authorization-code endpoint, as a function from code to reply.

  A page request beyond its script gets an empty page, as a request past the end of a collection does. A run beyond its script sees an empty collection.
- **`sleep`** is not performed. `RetryWithBackoff` returns the delays it would have slept.

Some facts about the code that shape the model:

- **Two sub-fetches.** `getAllSongs` runs exactly two: saved tracks, then tracks of the user's own playlists.
- **No retry in the fetcher.** It does not use `retryWithBackoff` or `handleTokenRefresh`.
- **Errors and partial results.** A sub-fetch swallows any error other than an expired token and returns the tracks it gathered before the error. After an expired token, two errors propagate: a ConfigurationError from `new SpotifyAuth()` (song-fetcher.js:64, 92) and the TokenExpiredError of a failed refresh. Then `getAllSongs` returns `[]`.
- **Refresh and the refresh token.** A refresh keeps the refresh token held before it, even when the endpoint sends a new one.
- **Stale credentials.** `authenticate` returns the API handle at once for a stale credential, because the refresh promise that `loadTokens` returns is truthy and is not awaited. So a failing refresh never leads to the interactive flow. The `catch` in `authenticate` cannot see a rejection of `performAuthFlow`, since that promise is returned and not awaited. The model therefore has no error path there.
- **The fetcher's refresh.** It runs on `new SpotifyAuth()`. That instance validates the configuration and holds no tokens, because its constructor does not load the token file. The fetcher's own API handle does not receive the new access token. `Auth.RefreshFromNewInstance`'s contract records this: a successful refresh there yields a session with no refresh token, and it rewrites the token file without one. The fetcher's token-file functions carry that file through to the end of `getAllSongs`.

## Model

| member | source | states |
|---|---|---|
| Errors.NewSpotifyError | errors.js:1-7 | a SpotifyError keeps its message; its code is the given one, or SPOTIFY_ERROR when none is given |
| Errors.NewAuthenticationError | errors.js:9-14 | a SpotifyError named AuthenticationError with code AUTH_ERROR; the default message is "Authentication failed" |
| Errors.NewTokenExpiredError | errors.js:16-21 | a SpotifyError named TokenExpiredError with code TOKEN_EXPIRED; the default message is "Access token expired" |
| Errors.NewConfigurationError | errors.js:23-29 | not a SpotifyError, yet it carries code CONFIG_ERROR and keeps its message |
| Errors.NewRetryableError | errors.js:31-37 | a SpotifyError with code RETRYABLE_ERROR whose original error is the given cause, unchanged |
| Backoff.RetryWithBackoff | utils.js:8-29 | at most maxAttempts calls; every call before the last threw; the first returned value is passed through with no further call; exhaustion wraps the last error in a RetryableError naming maxAttempts; n calls sleep exactly n-1 delays, following the schedule; with maxAttempts <= 0 nothing is called and nothing is thrown |
| Backoff.Schedule | utils.js:24 | the delay after failed attempt i (counted from 1) is initial * multiplier^(i-1) |
| Backoff.DelaysIncrease | utils.js:24 | with a positive initial delay and a multiplier above 1, a later attempt waits strictly longer |
| Backoff.ScheduleIncreasing | utils.js:24 | the recorded schedule is strictly increasing under the same conditions |
| Backoff.ScheduleTotal | utils.js:24 | geometric sum: (multiplier - 1) times the total of n delays is initial * (multiplier^n - 1) |
| Backoff.ConfiguredSchedule | config.js:7-11 | with 3 attempts, 1000 ms and multiplier 2, the delays are 1000 then 2000, 3000 in total |
| Text.DigitRun | spotify-auth.js:136 | the greedy `\d+`: the longest all-digit prefix |
| Text.ContainsIffOccurs | song-fetcher.js:61 | `includes` holds exactly when the part occurs at some index |
| Auth.Unset | spotify-auth.js:23-24 | a setting is listed as unset exactly when it is one of the required keys and is absent or empty |
| Auth.UnsetInOrder | spotify-auth.js:23-24 | `filter` keeps exactly the positions of the unset keys, in increasing order, so the missing settings come in the order they are required |
| Auth.ValidateConfig | spotify-auth.js:22-28 | it fails exactly when some required setting is unset; the ConfigurationError message lists the unset ones joined by ", " |
| Auth.MissingListedInOrder | spotify-auth.js:22-27 | with the id and redirect URI unset, the message names them in that fixed order |
| Auth.LoadTokens | spotify-auth.js:42-59 | only an existing, readable token file loads; its tokens go into the handle; it is used without a refresh exactly when expires_at is present and now < expires_at, strictly |
| Auth.RefreshTokens | spotify-auth.js:61-76 | it fails exactly when the endpoint rejects, and then raises a TokenExpiredError carrying the cause's message; on success the new access token is installed, the held refresh token is kept, and the file records expires_at = now + expires_in * 1000 |
| Auth.HandleTokenRefresh | spotify-auth.js:78-88 | true exactly when the refresh succeeds; a failure is false, never an error |
| Auth.RefreshFromNewInstance | song-fetcher.js:63-65 | the fetcher's refresh succeeds exactly when the configuration is complete and the endpoint grants; it then holds no refresh token and writes a token file without one; otherwise the error is a ConfigurationError or TokenExpiredError |
| Auth.RefreshThenLoad | spotify-auth.js:64-70 | a refreshed credential, loaded later, gives the same session and is used as is exactly until its expiry |
| Auth.Authenticate | spotify-auth.js:30-40 | the interactive flow runs exactly when no token file loads; otherwise the handle is returned, with a refresh pending exactly when the credential is stale |
| Auth.Start | spotify-auth.js:11-40 | construction fails with a ConfigurationError exactly when a required setting is unset, before any token is read |
| Auth.ClassifyCallback | spotify-auth.js:102-133 | a non-empty `code` wins, then a non-empty `error`; any other request is ignored |
| Auth.ExchangedCredential | spotify-auth.js:107-111 | both tokens come from the exchange reply and expires_at = now + expires_in * 1000 |
| Auth.HandleCallback | spotify-auth.js:101-134 | ignored requests get no response; a granted code answers 200 with both tokens in the handle and the exchanged credential in the token file; a failed exchange answers 400 with "Authorization failed: " and the cause; an error query answers 400 with "Authentication cancelled by user"; every rejection is an AuthenticationError |
| Auth.AwaitCallback | spotify-auth.js:97-140 | the flow keeps waiting exactly while every request is ignored; otherwise the first request that is not ignored settles it |
| Auth.ExchangeThenLoad | spotify-auth.js:104-115 | a credential from a code exchange, loaded later, carries both tokens of the reply and is used until it expires |
| Auth.SchemeChoice | spotify-auth.js:98-99 | an "https://" redirect URI gets an https listener, an "http://" one does not |
| Auth.PortCapture | spotify-auth.js:136 | a captured port is a non-empty run of digits |
| Auth.PortCaptureLeftmost | spotify-auth.js:136 | there is no capture exactly when no ':' is directly followed by a digit; otherwise the capture is the whole digit run after the leftmost such ':' |
| Auth.ListenerPort | spotify-auth.js:136 | with no ':' directly followed by a digit the port is 3000; otherwise it is the value of the digit run after the leftmost such ':' |
| Auth.PortRoundTrip | spotify-auth.js:136 | a port written after a host with no ':'-digit pair is read back, whatever non-digit path follows |
| Auth.PortCaptureAfterHost | spotify-auth.js:136 | after a host with no ':' directly followed by a digit, the capture of ":" digits path is exactly those digits, when the path does not start with a digit |
| Auth.LocalRedirect | spotify-auth.js:98-136 | "http://localhost:8888/callback" gets a plain http listener on port 8888 |
| Tracks.ToTrack | song-fetcher.js:45-53 | a normalised track keeps the raw id, name, album name, Spotify URL and preview URL, joins the artist names with ", " and is tagged with its sub-fetch |
| Tracks.Normalize | song-fetcher.js:43-55 | at most one track per item, each tagged with the sub-fetch's source |
| Tracks.NormalizeAppend | song-fetcher.js:35-59 | normalising page after page is normalising all items at once |
| Tracks.NormalizeMembers | song-fetcher.js:43-55 | a track is produced exactly when a non-null item carries it; null tracks are skipped |
| Tracks.RemoveDuplicates | song-fetcher.js:142-150 | the Map-based loop computes the first-occurrence reference definition; the result has distinct ids and exactly the input's ids |
| Tracks.FirstOccurrencesIds | song-fetcher.js:142-150 | every input id survives, and no other |
| Tracks.FirstOccurrencesDistinct | song-fetcher.js:142-150 | no id appears twice in the result |
| Tracks.FirstOccurrencesKeepFirst | song-fetcher.js:143-149 | the result is taken from the input at strictly increasing positions, and each kept track is the first of the input with its id |
| Tracks.FirstOccurrencesOfDistinct | song-fetcher.js:143-149 | input whose ids are already distinct is returned unchanged |
| Tracks.FirstOccurrencesIdempotent | song-fetcher.js:142-150 | deduplicating twice is deduplicating once |
| Fetcher.WalkPages | song-fetcher.js:35-59 | the offsets requested are offset, offset + limit, offset + 2 * limit, …; every track carries the walk's source |
| Fetcher.WalkPagesMatches | song-fetcher.js:35-59 | every request but the last got a full page; the last got an empty, short or failed reply; the walk's error is that reply's error; the tracks are the normalised items of all pages fetched, in page order |
| Fetcher.WalkPagedCollection | song-fetcher.js:31-59 | a collection served page by page is retrieved whole, in order and without error, in k requests where (k - 1) * limit <= size < k * limit |
| Fetcher.GetTracksFromPlaylist | song-fetcher.js:104-140 | a playlist walk with page size 100 whose errors are swallowed; its tracks are tagged as playlist tracks |
| Fetcher.VisitPlaylists | song-fetcher.js:82-87 | the loop ends with an error exactly when some visited `getMe()` call fails; all tracks are tagged as playlist tracks |
| Fetcher.FirstMeFailure | song-fetcher.js:82-83 | the loop gets through the visits before the first failing `getMe()` call: all of those succeeded, and the one at the index failed |
| Fetcher.VisitPlaylistsGathers | song-fetcher.js:82-87 | the loop's tracks are, in listing order, the tracks of every owned playlist visited before the first failing `getMe()`, each playlist's in page order; the error is that call's, or none when every call succeeds |
| Fetcher.OnlyOwnedPlaylistsContribute | song-fetcher.js:82-86 | every gathered track comes from a playlist whose owner is the current user |
| Fetcher.OwnedPlaylistsAllContribute | song-fetcher.js:82-86 | when every `getMe()` succeeds, every track of every owned playlist is gathered |
| Fetcher.EndRun | song-fetcher.js:60-71 | a run without an expiry error keeps what it gathered; an expiry error restarts exactly when the refresh succeeds, carrying a token file without a refresh token, and otherwise propagates the refresh's error |
| Fetcher.GetSavedTracks | song-fetcher.js:29-74 | a successful result holds only saved tracks; a propagated error is a ConfigurationError or TokenExpiredError |
| Fetcher.PlaylistFetch | song-fetcher.js:79-87 | one run of the playlist sub-fetch gathers only playlist tracks; a failed `getUserPlaylists()` gathers nothing and its error is the one the run ends with |
| Fetcher.GetPlaylistTracks | song-fetcher.js:76-102 | a successful result holds only playlist tracks; a propagated error is a ConfigurationError or TokenExpiredError |
| Fetcher.SavedTokenFile | song-fetcher.js:60-68 | after a restart of the saved-tracks sub-fetch the token file holds a record without a refresh token; without a restart it is untouched |
| Fetcher.PlaylistTokenFile | song-fetcher.js:88-96 | the same for the playlist sub-fetch |
| Fetcher.PlaylistRunOfOwned | song-fetcher.js:76-102 | a run whose listing and every `getMe()` succeed returns exactly the gathered tracks of the owned playlists, so every track of every owned playlist is in the result |
| Fetcher.PlaylistRunWithoutExpiry | song-fetcher.js:76-102 | a run whose listing succeeds and meets no expired token returns the owned playlists' tracks gathered before any failing `getMe()`: that error is swallowed and the tracks are kept |
| Fetcher.SavedRunWithoutExpiry | song-fetcher.js:60-73 | a run that ends without an expiry error returns the tracks gathered before any error |
| Fetcher.SavedRestartAfterRefresh | song-fetcher.js:61-68 | after an expiry and a successful refresh, the expired run is discarded and the sub-fetch starts over from offset 0 |
| Fetcher.PlaylistRestartAfterRefresh | song-fetcher.js:88-96 | after an expiry and a successful refresh, the expired playlist run is discarded and the sub-fetch starts over from the listing |
| Fetcher.SavedTracksSettle | song-fetcher.js:29-74 | over every run: let k be the first run that is not restarted after an expiry; the sub-fetch throws exactly when run k ends in an expiry whose refresh fails, with that refresh's error; otherwise it returns run k's gathered tracks, or nothing when every scripted run restarted |
| Fetcher.PlaylistTracksSettle | song-fetcher.js:76-102 | the same all-runs outcome for the playlist sub-fetch |
| Fetcher.SavedRefreshFailureEmptiesLibrary | song-fetcher.js:6-27 | an expired first saved-tracks run whose refresh fails, through an unset setting or a refused refresh, throws the refresh's error and `getAllSongs()` returns an empty library |
| Fetcher.PlaylistRefreshFailureEmptiesLibrary | song-fetcher.js:6-27 | the same for an expired first playlist run, whatever the saved-tracks sub-fetch returned |
| Fetcher.SavedTracksRefreshAndRetry | song-fetcher.js:29-74 | a first page rejected as expired, a successful refresh, then a whole collection: the result is the whole collection |
| Fetcher.GetAllSongs | song-fetcher.js:6-27 | the library has distinct ids, and it is empty if either sub-fetch propagates an error |
| Fetcher.AllSongsTokenFile | song-fetcher.js:6-27 | `getAllSongs` leaves the token file as it was or holding a record without a refresh token, and always the latter once the saved-tracks sub-fetch restarted |
| Fetcher.RestartLosesRefreshToken | song-fetcher.js:60-68 | after such a restart, the next start-up loads a credential without a refresh token |
| Fetcher.SavedCopyWins | song-fetcher.js:8-20 | every id of either sub-fetch survives once; for an id among the saved tracks, the first saved copy wins over any playlist copy |
| Fetcher.EarlierCopyWins | song-fetcher.js:8-20 | deduplicating a concatenation keeps, for every id of the first part, the first track of that part with the id |
| Selector.LoadHistory | song-selector.js:31-41 | the stored `played` list; a missing or unreadable file, or a missing `played`, reads as [] |
| Selector.LastN | song-selector.js:47-49 | the last min(len, n) entries, in order |
| Selector.Bounded | song-selector.js:47-49 | at most 100 entries; a history within the bound is kept whole |
| Selector.AddToHistory | song-selector.js:43-56 | the file afterwards holds between 1 and 100 plays, and the newest is the id just added |
| Selector.ClearHistory | song-selector.js:58-66 | afterwards the history reads as [] |
| Selector.GetHistoryStats | song-selector.js:68-74 | totalPlayed is the history's length; lastPlayed is its last min(10, length) ids, in order |
| Selector.AddThenLoad | song-selector.js:43-49 | reading back gives the previous plays plus the new id, kept to the last 100; below the bound nothing is lost |
| Selector.LastNSnoc | song-selector.js:45-49 | appending to a bounded history and bounding again is appending and bounding once |
| Selector.AddAllKeepsMostRecent | song-selector.js:43-49 | after any number of plays the file holds exactly the most recent 100, duplicates kept |
| Selector.PickIndex | song-selector.js:22-24 | the drawn index is always in range |
| Selector.EveryIndexReachable | song-selector.js:22-24 | every index in range is drawn by some value of `Math.random()` |
| Selector.EverySongReachable | song-selector.js:15-24 | every unplayed song, or every song once all were played, is chosen by some draw |
| Selector.Unplayed | song-selector.js:16 | a song is available exactly when it is in the list and its id is not in the history |
| Selector.UnplayedIsFilter | song-selector.js:16 | the available songs are the order-preserving filter of the list: a lone song is kept exactly when unplayed, and a concatenation is filtered piece by piece |
| Selector.SelectRandomSong | song-selector.js:10-29 | an empty list, and only an empty list, is rejected with "No songs available for selection"; the chosen song is in the list; it is not in the history when some song is not; the history is then the chosen id alone after a reset, or the previous history plus the id, bounded to 100 |
| Selector.SelectionRecordsSong | song-selector.js:19-27 | after a reset the history is exactly the chosen id; otherwise it is the previous history plus that id, bounded to 100 |
| Selector.NoImmediateRepeat | song-selector.js:15-27 | the next selection does not repeat the song just chosen while some other song is unplayed |
| Selector.ThirdSongChosen | song-selector.js:16-27 | songs A, B, C with history [A, B]: C is chosen whatever the draw, and the history becomes [A, B, C] |

## Left out

- **The file system.** Reading and writing files and JSON parsing are replaced by file-state values. The model treats every write and delete as successful. A failed write or delete of the history file is logged and swallowed by song-selector.js, so nothing changes. Two failure paths of the token file are dropped:
  - a failed write in `refreshTokens` (spotify-auth.js:70) throws a TokenExpiredError;
  - a failed write in the callback handler (spotify-auth.js:113) answers 400 and rejects with an AuthenticationError "Authorization failed: " and the cause.
- **Token file contents.** A file that is unreadable, is not valid JSON or holds `null` does not load. Any other JSON value loads as a record whose missing fields read as None.
- **Network calls.** The HTTP/HTTPS callback server, the SpotifyWebApi client and `createAuthorizeURL` are out. The API is the scripted replies described above.
- **Logging.** The console output has no effect on behaviour.
- **Asynchrony.** Promises and concurrency are out. Every call is taken in program order. Two consequences are modelled as plain decisions:
  - `loadTokens` returning a pending refresh (`Auth.LoadTokens`'s `refreshStarted`);
  - the handle returned before that refresh settles.

  What that unawaited refresh later does to the handle and the file is not modelled.
- Fetcher.GetSavedTracks: the restart after an expired token can recur without bound in the source. The model bounds it by the length of the scripted run sequence, and a run beyond the script sees an empty collection. The script also decides whether a restarted run still meets an expired token, since the fetcher's own handle never receives the refreshed one.
- Fetcher.GetPlaylistTracks: the same bound as GetSavedTracks. Only the first page of `getUserPlaylists()` is modelled, which is all the source examines.
- **Playlist track requests.** A failed page request inside a playlist is swallowed by `getTracksFromPlaylist`. It is modelled. What the remote API does with repeated requests is not modelled.
- Selector.PickIndex: it multiplies exactly. It does not model floating-point rounding of `Math.random() * n`. For the array lengths JavaScript allows, that rounding cannot reach n.
- Auth.ListenerPort: it parses the captured digits as an unbounded natural. It does not model whether `server.listen` accepts the port.
- Auth.ExpiryTime: it computes with unbounded integers, not JavaScript doubles. Millisecond timestamps stay far below 2^53.
- **The sleep helper** (utils.js:4-6). It is replaced by the recorded delays.
- **index.js and config.js.** index.js is command-line glue. It never passes an empty library to the selector. config.js is used only for its RETRY constants, since the selector and the fetcher hard-code their own 100, 50 and 100.

=== FILE: arith.dfy ===
/** Small facts about integer arithmetic shared by the retry schedule, pagination and the random pick. */
module Arith {
  function Min(a: int, b: int): int {
    if a < b then a else b
  }

  lemma Distribute(x: int, y: int, z: int)
    ensures x * (y + z) == x * y + x * z
  {
  }

  lemma MulMono(a: nat, b: nat, c: nat)
    requires a <= b
    ensures a * c <= b * c
  {
    Distribute(c, a, b - a);
  }

  lemma MulStrict(a: nat, b: nat, c: nat)
    requires a < b && c > 0
    ensures a * c < b * c
  {
    Distribute(c, a, b - a);
  }
}

=== FILE: auth.dfy ===
/**
 The decision logic of spotify-auth.js: configuration validation, the expiry
 test on a stored credential, how credential records are built on refresh and
 on code exchange, the callback classification of the interactive flow, and
 the listener's scheme and port. The environment, the token file, the clock
 and the remote token endpoint are parameters.
 */
module Auth {
  import opened Wrappers
  import opened Errors
  import opened Text

  // ---------------------------------------------------------------------------
  // Configuration

  /** `process.env`. */
  type Environment = map<string, string>

  const ClientIdKey := "SPOTIFY_CLIENT_ID"
  const ClientSecretKey := "SPOTIFY_CLIENT_SECRET"
  const RedirectUriKey := "SPOTIFY_REDIRECT_URI"
  const RequiredSettings := [ClientIdKey, ClientSecretKey, RedirectUriKey]
  const MissingPrefix := "Missing required environment variables: "

  /** `process.env[key]` is truthy: present and not the empty string. */
  predicate IsSet(env: Environment, key: string) {
    key in env && env[key] != ""
  }

  /** The keys of `keys` that are not set, in the order of `keys`. */
  function Unset(env: Environment, keys: seq<string>): (missing: seq<string>)
    ensures |missing| <= |keys|
    ensures forall k :: k in missing <==> k in keys && !IsSet(env, k)
    decreases |keys|
  {
    if |keys| == 0 then []
    else (if IsSet(env, keys[0]) then [] else [keys[0]]) + Unset(env, keys[1..])
  }

  /** Every position moved one to the right. */
  function Shift(idx: seq<nat>): (s: seq<nat>)
    ensures |s| == |idx|
    ensures forall k :: 0 <= k < |idx| ==> s[k] == idx[k] + 1
  {
    seq(|idx|, k requires 0 <= k < |idx| => idx[k] + 1)
  }

  lemma ShiftMembers(idx: seq<nat>, i: nat)
    ensures i in Shift(idx) <==> i > 0 && i - 1 in idx
  {
    var s := Shift(idx);
    if i in s {
      var k :| 0 <= k < |s| && s[k] == i;
      assert idx[k] == i - 1;
    }
    if i > 0 && i - 1 in idx {
      var k :| 0 <= k < |idx| && idx[k] == i - 1;
      assert s[k] == i;
    }
  }

  /** The filter `Unset` takes from `keys` at exactly these positions, in this order. */
  lemma {:induction false} UnsetInOrder(env: Environment, keys: seq<string>)
    ensures exists idx :: UnsetAt(env, keys, Unset(env, keys), idx)
    decreases |keys|
  {
    if |keys| == 0 {
      assert UnsetAt(env, keys, Unset(env, keys), []);
    } else {
      UnsetInOrder(env, keys[1..]);
      var idx :| UnsetAt(env, keys[1..], Unset(env, keys[1..]), idx);
      UnsetCons(env, keys, idx);
    }
  }

  /** The positions for `keys` are 0 when its first key is unset, then those for its tail moved one right. */
  lemma UnsetCons(env: Environment, keys: seq<string>, idx: seq<nat>)
    requires |keys| > 0 && UnsetAt(env, keys[1..], Unset(env, keys[1..]), idx)
    ensures UnsetAt(env, keys, Unset(env, keys), (if IsSet(env, keys[0]) then [] else [0]) + Shift(idx))
  {
    var rest := Unset(env, keys[1..]);
    var head := if IsSet(env, keys[0]) then [] else [keys[0]];
    var first: seq<nat> := if IsSet(env, keys[0]) then [] else [0];
    UnsetConsTaken(keys, rest, idx, head, first);
    UnsetConsPositions(env, keys, idx, first);
  }

  /**
   `missing` is taken from `keys` at the strictly increasing positions `idx`,
   and those positions are exactly the ones whose key is not set.
   */
  predicate UnsetAt(env: Environment, keys: seq<string>, missing: seq<string>, idx: seq<nat>) {
    && Taken(keys, missing, idx)
    && (forall i :: 0 <= i < |keys| ==> (i in idx <==> !IsSet(env, keys[i])))
  }

  /** `sub` is read off `s` at the strictly increasing positions `idx`. */
  predicate Taken(s: seq<string>, sub: seq<string>, idx: seq<nat>) {
    && |idx| == |sub|
    && (forall k :: 0 <= k < |idx| ==> idx[k] < |s| && sub[k] == s[idx[k]])
    && (forall k, l :: 0 <= k < l < |idx| ==> idx[k] < idx[l])
  }

  lemma UnsetConsTaken(keys: seq<string>, rest: seq<string>, idx: seq<nat>, head: seq<string>, first: seq<nat>)
    requires |keys| > 0 && Taken(keys[1..], rest, idx)
    requires (head == [] && first == []) || (head == [keys[0]] && first == [0])
    ensures Taken(keys, head + rest, first + Shift(idx))
  {
    var all := first + Shift(idx);
    forall k | 0 <= k < |all|
      ensures all[k] < |keys| && (head + rest)[k] == keys[all[k]]
    {
      if k >= |first| {
        assert keys[1..][idx[k - |first|]] == keys[idx[k - |first|] + 1];
      }
    }
  }

  lemma UnsetConsPositions(env: Environment, keys: seq<string>, idx: seq<nat>, first: seq<nat>)
    requires |keys| > 0
    requires forall i :: 0 <= i < |keys[1..]| ==> (i in idx <==> !IsSet(env, keys[1..][i]))
    requires first == if IsSet(env, keys[0]) then [] else [0]
    ensures forall i :: 0 <= i < |keys| ==> (i in first + Shift(idx) <==> !IsSet(env, keys[i]))
  {
    forall i | 0 <= i < |keys|
      ensures i in first + Shift(idx) <==> !IsSet(env, keys[i])
    {
      ShiftMembers(idx, i);
      if i > 0 {
        assert keys[i] == keys[1..][i - 1];
      }
    }
  }

  /** `validateConfig()`: throws a ConfigurationError naming every unset required setting. */
  function ValidateConfig(env: Environment): (r: Result<(), Error>)
    ensures r.Failure? <==> exists k :: k in RequiredSettings && !IsSet(env, k)
    ensures r.Failure? ==> r.error == NewConfigurationError(MissingPrefix + Join(Unset(env, RequiredSettings), ", "))
  {
    var missing := Unset(env, RequiredSettings);
    if |missing| > 0 then
      assert missing[0] in missing;
      Failure(NewConfigurationError(MissingPrefix + Join(missing, ", ")))
    else
      assert forall k :: k in RequiredSettings ==> IsSet(env, k);
      Success(())
  }

  /** The missing settings are listed in the fixed order id, secret, redirect URI. */
  lemma MissingListedInOrder(env: Environment)
    requires !IsSet(env, ClientIdKey) && IsSet(env, ClientSecretKey) && !IsSet(env, RedirectUriKey)
    ensures ValidateConfig(env) == Failure(ConfigurationError(MissingPrefix + ClientIdKey + ", " + RedirectUriKey))
  {
    var keys := RequiredSettings;
    assert keys[1..][1..] == [RedirectUriKey];
    assert Unset(env, [RedirectUriKey]) == [RedirectUriKey] by {
      assert [RedirectUriKey][1..] == [];
    }
    assert Unset(env, keys[1..]) == [RedirectUriKey];
    assert Unset(env, keys) == [ClientIdKey, RedirectUriKey];
    assert Join([ClientIdKey, RedirectUriKey], ", ") == ClientIdKey + ", " + RedirectUriKey by {
      assert [ClientIdKey, RedirectUriKey][1..] == [RedirectUriKey];
    }
    assert MissingPrefix + (ClientIdKey + ", " + RedirectUriKey) == MissingPrefix + ClientIdKey + ", " + RedirectUriKey;
    assert ValidateConfig(env) == Failure(NewConfigurationError(MissingPrefix + Join(Unset(env, keys), ", ")));
  }

  // ---------------------------------------------------------------------------
  // Credentials and the token file

  /** The access and refresh tokens the API handle currently holds. */
  datatype Session = Session(accessToken: Option<string>, refreshToken: Option<string>)

  /** The parsed token file; a field missing from the JSON reads as None. */
  datatype TokenRecord = TokenRecord(accessToken: Option<string>, refreshToken: Option<string>, expiresAt: Option<int>)

  /**
   The token file: absent; unreadable, not valid JSON or the JSON `null`; or
   holding a record. Any other JSON value loads as a record, and a field it
   lacks reads as None.
   */
  datatype TokenFile = NoTokenFile | CorruptTokenFile | TokenFileHolds(record: TokenRecord)

  /** A credential as the source builds it: `expiresAt` is a millisecond timestamp. */
  datatype Credential = Credential(accessToken: string, refreshToken: Option<string>, expiresAt: int)

  /** What the refresh endpoint answers. A rotated refresh token may come back. */
  datatype RefreshReply =
    | RefreshGranted(accessToken: string, refreshToken: Option<string>, expiresIn: int)
    | RefreshDenied(cause: Error)

  /** What the authorization-code endpoint answers. */
  datatype ExchangeReply =
    | CodeGranted(accessToken: string, refreshToken: string, expiresIn: int)
    | CodeDenied(cause: Error)

  /** The handle's tokens together with the token file. */
  datatype AuthState = AuthState(session: Session, tokenFile: TokenFile)

  /** `JSON.stringify` of a credential, as read back. */
  function Persist(c: Credential): TokenRecord {
    TokenRecord(Some(c.accessToken), c.refreshToken, Some(c.expiresAt))
  }

  /** `Date.now() + expires_in * 1000`: seconds of lifetime turned into an absolute millisecond time. */
  function ExpiryTime(now: nat, expiresIn: int): int {
    now + expiresIn * 1000
  }

  /** `tokens.expires_at && Date.now() < tokens.expires_at`. */
  predicate StillValid(record: TokenRecord, now: nat) {
    record.expiresAt.Some? && record.expiresAt.value != 0 && now < record.expiresAt.value
  }

  /**
   What `loadTokens()` decides. `Loaded` means the tokens were installed in the
   handle and the call returned a truthy value; `refreshStarted` says that it
   returned the pending promise of `refreshTokens()` rather than `true`.
   */
  datatype Loaded = NotLoaded | Loaded(session: Session, refreshStarted: bool)

  function LoadTokens(file: TokenFile, now: nat): (r: Loaded)
    ensures r.NotLoaded? <==> !file.TokenFileHolds?
    ensures r.Loaded? ==> r.session == Session(file.record.accessToken, file.record.refreshToken)
    // used as is only while strictly before its expiry time; a missing expiry forces a refresh
    ensures r.Loaded? ==> (!r.refreshStarted <==> file.record.expiresAt.Some? && now < file.record.expiresAt.value)
  {
    match file
    case TokenFileHolds(record) =>
      Loaded(Session(record.accessToken, record.refreshToken), !StillValid(record, now))
    case _ => NotLoaded
  }

  /**
   `refreshTokens()`: on success the new access token is installed, the refresh
   token held before is kept and the credential is written to the token file.
   */
  function RefreshTokens(session: Session, now: nat, reply: RefreshReply): (r: Result<AuthState, Error>)
    ensures r.Failure? <==> reply.RefreshDenied?
    ensures r.Failure? ==>
              r.error == NewTokenExpiredError(Some("Failed to refresh access token: " + reply.cause.message))
    // a rotated refresh token in the reply is ignored
    ensures r.Success? ==> r.value.session == Session(Some(reply.accessToken), session.refreshToken)
    ensures r.Success? ==> r.value.tokenFile.TokenFileHolds?
    ensures r.Success? ==> r.value.tokenFile.record.expiresAt == Some(ExpiryTime(now, reply.expiresIn))
  {
    match reply
    case RefreshDenied(cause) =>
      Failure(NewTokenExpiredError(Some("Failed to refresh access token: " + cause.message)))
    case RefreshGranted(access, _, expiresIn) =>
      var c := Credential(access, session.refreshToken, ExpiryTime(now, expiresIn));
      Success(AuthState(Session(Some(c.accessToken), session.refreshToken), TokenFileHolds(Persist(c))))
  }

  /** `handleTokenRefresh()`: true exactly when the refresh succeeded; it never throws. */
  function HandleTokenRefresh(session: Session, now: nat, reply: RefreshReply): (ok: bool)
    ensures ok <==> reply.RefreshGranted?
  {
    RefreshTokens(session, now, reply).Success?
  }

  /**
   `new SpotifyAuth().refreshTokens()` as song-fetcher.js runs it: the new
   instance validates the configuration first and holds no tokens.
   */
  function RefreshFromNewInstance(env: Environment, now: nat, reply: RefreshReply): (r: Result<AuthState, Error>)
    ensures r.Success? <==> (forall k :: k in RequiredSettings ==> IsSet(env, k)) && reply.RefreshGranted?
    ensures r.Success? ==> r.value.session.refreshToken == None
    // the rewritten token file loses the refresh token it held
    ensures r.Success? ==> r.value.tokenFile.TokenFileHolds? && r.value.tokenFile.record.refreshToken == None
    ensures r.Failure? ==> r.error.ConfigurationError? || r.error.TokenExpiredError?
  {
    match ValidateConfig(env)
    case Failure(e) => Failure(e)
    case Success(_) => RefreshTokens(Session(None, None), now, reply)
  }

  /** A refreshed credential, read back later, is the same session and is used as is until its expiry. */
  lemma RefreshThenLoad(session: Session, now: nat, reply: RefreshReply, later: nat)
    requires reply.RefreshGranted?
    ensures var r := RefreshTokens(session, now, reply);
            && r.Success?
            && LoadTokens(r.value.tokenFile, later)
               == Loaded(r.value.session, !(later < ExpiryTime(now, reply.expiresIn)))
  {
  }

  // ---------------------------------------------------------------------------
  // authenticate()

  /** Where `authenticate()` goes: the handle is returned, or the interactive flow runs. */
  datatype AuthPath = UseHandle(session: Session, refreshPending: bool) | InteractiveFlow

  /**
   `authenticate()`. A stale credential starts a refresh whose promise is not
   awaited, so the handle is returned at once and a failing refresh never leads
   to the interactive flow.
   */
  function Authenticate(file: TokenFile, now: nat): (p: AuthPath)
    ensures p.InteractiveFlow? <==> !file.TokenFileHolds?
    ensures p.UseHandle? ==> p.session == Session(file.record.accessToken, file.record.refreshToken)
    ensures p.UseHandle? ==> (p.refreshPending <==> !StillValid(file.record, now))
  {
    match LoadTokens(file, now)
    case NotLoaded => InteractiveFlow
    case Loaded(session, refreshing) => UseHandle(session, refreshing)
  }

  /** `new SpotifyAuth()` followed by `authenticate()`: configuration errors come first. */
  function Start(env: Environment, file: TokenFile, now: nat): (r: Result<AuthPath, Error>)
    ensures r.Failure? <==> exists k :: k in RequiredSettings && !IsSet(env, k)
    ensures r.Failure? ==> r.error.ConfigurationError?
    ensures r.Success? ==> (r.value.InteractiveFlow? <==> !file.TokenFileHolds?)
  {
    match ValidateConfig(env)
    case Failure(e) => Failure(e)
    case Success(_) => Success(Authenticate(file, now))
  }

  // ---------------------------------------------------------------------------
  // The interactive flow's callback listener

  /** The parsed query of a request to the callback listener. */
  type Query = map<string, string>

  datatype CallbackKind = CodeCallback(code: string) | ErrorCallback | OtherRequest

  /** `query.code` is tested first, then `query.error`; anything else is ignored. */
  function ClassifyCallback(query: Query): (k: CallbackKind)
    ensures k.CodeCallback? <==> "code" in query && query["code"] != ""
    ensures k.CodeCallback? ==> k.code == query["code"]
    ensures k.ErrorCallback? <==> !k.CodeCallback? && "error" in query && query["error"] != ""
  {
    if "code" in query && query["code"] != "" then CodeCallback(query["code"])
    else if "error" in query && query["error"] != "" then ErrorCallback
    else OtherRequest
  }

  const CancelledMessage := "Authentication cancelled by user"

  /** How the flow's promise settles. */
  datatype FlowOutcome = Authorized(state: AuthState) | Rejected(error: Error)

  /** The listener's answer to one request: an HTTP status and a settled flow, or silence. */
  datatype CallbackResponse = Respond(status: nat, outcome: FlowOutcome) | NoResponse

  /** The credential built from a successful code exchange: both tokens come from the reply. */
  function ExchangedCredential(reply: ExchangeReply, now: nat): (c: Credential)
    requires reply.CodeGranted?
    ensures c.accessToken == reply.accessToken && c.refreshToken == Some(reply.refreshToken)
    ensures c.expiresAt == ExpiryTime(now, reply.expiresIn)
  {
    Credential(reply.accessToken, Some(reply.refreshToken), ExpiryTime(now, reply.expiresIn))
  }

  /** The request handler of `performAuthFlow()`; `exchange` is the authorization-code endpoint. */
  function HandleCallback(query: Query, now: nat, exchange: string -> ExchangeReply): (r: CallbackResponse)
    ensures r.NoResponse? <==> ClassifyCallback(query).OtherRequest?
    ensures r.Respond? ==> (r.status == 200 <==> r.outcome.Authorized?)
    ensures ClassifyCallback(query).ErrorCallback? ==>
              r == Respond(400, Rejected(NewAuthenticationError(Some(CancelledMessage))))
    ensures r.Respond? && r.outcome.Rejected? ==> r.outcome.error.AuthenticationError?
    // a granted code puts both tokens in the handle and writes them to the token file
    ensures var k := ClassifyCallback(query);
            k.CodeCallback? && exchange(k.code).CodeGranted? ==>
              var reply := exchange(k.code);
              r == Respond(200, Authorized(AuthState(
                     Session(Some(reply.accessToken), Some(reply.refreshToken)),
                     TokenFileHolds(Persist(ExchangedCredential(reply, now))))))
    ensures var k := ClassifyCallback(query);
            k.CodeCallback? && exchange(k.code).CodeDenied? ==>
              r == Respond(400, Rejected(NewAuthenticationError(Some("Authorization failed: " + exchange(k.code).cause.message))))
  {
    match ClassifyCallback(query)
    case CodeCallback(code) =>
      var reply := exchange(code);
      (match reply
       case CodeGranted(_, _, _) =>
         var c := ExchangedCredential(reply, now);
         Respond(200, Authorized(AuthState(Session(Some(c.accessToken), c.refreshToken), TokenFileHolds(Persist(c)))))
       case CodeDenied(cause) =>
         Respond(400, Rejected(NewAuthenticationError(Some("Authorization failed: " + cause.message)))))
    case ErrorCallback =>
      Respond(400, Rejected(NewAuthenticationError(Some(CancelledMessage))))
    case OtherRequest =>
      NoResponse
  }

  /** The flow after a sequence of requests: settled by the `served`-th one, or still waiting. */
  datatype FlowState = Settled(served: nat, status: nat, outcome: FlowOutcome) | Waiting

  /**
   The listener serves requests in order until one settles the flow; then the
   server is closed and later requests are never served.
   */
  function AwaitCallback(requests: seq<Query>, now: nat, exchange: string -> ExchangeReply): (s: FlowState)
    ensures s.Waiting? <==> forall i :: 0 <= i < |requests| ==> ClassifyCallback(requests[i]).OtherRequest?
    ensures s.Settled? ==>
              && s.served < |requests|
              && (forall i :: 0 <= i < s.served ==> ClassifyCallback(requests[i]).OtherRequest?)
              && HandleCallback(requests[s.served], now, exchange) == Respond(s.status, s.outcome)
    decreases |requests|
  {
    if |requests| == 0 then Waiting
    else match HandleCallback(requests[0], now, exchange)
      case Respond(status, outcome) => Settled(0, status, outcome)
      case NoResponse =>
        match AwaitCallback(requests[1..], now, exchange)
        case Waiting => Waiting
        case Settled(n, status, outcome) => Settled(n + 1, status, outcome)
  }

  /** A credential obtained by code exchange is read back with both tokens and used until it expires. */
  lemma ExchangeThenLoad(query: Query, now: nat, exchange: string -> ExchangeReply, later: nat)
    requires ClassifyCallback(query).CodeCallback?
    requires exchange(query["code"]).CodeGranted?
    ensures var r := HandleCallback(query, now, exchange);
            var reply := exchange(query["code"]);
            && r == Respond(200, r.outcome) && r.outcome.Authorized?
            && LoadTokens(r.outcome.state.tokenFile, later)
               == Loaded(Session(Some(reply.accessToken), Some(reply.refreshToken)),
                         !(later < ExpiryTime(now, reply.expiresIn)))
  {
  }

  // ---------------------------------------------------------------------------
  // Listener scheme and port

  const DefaultPort := 3000

  /** The listener is an https server exactly when the redirect URI starts with "https://". */
  predicate UsesHttps(redirectUri: string) {
    StartsWith(redirectUri, "https://")
  }

  lemma SchemeChoice(rest: string)
    ensures UsesHttps("https://" + rest)
    ensures !UsesHttps("http://" + rest)
  {
    assert ("https://" + rest)[..8] == "https://";
    if |"http://" + rest| >= 8 {
      assert ("http://" + rest)[4] == ':';
    }
  }

  /** A ':' at index i directly followed by a digit: where `/:(\d+)/` can match. */
  predicate ColonDigitAt(uri: string, i: int) {
    0 <= i && i + 1 < |uri| && uri[i] == ':' && IsDigit(uri[i + 1])
  }

  /** The capture group of the leftmost match of `/:(\d+)/`, if any. */
  function PortCapture(uri: string): (r: Option<string>)
    ensures r.Some? ==> |r.value| > 0 && AllDigits(r.value)
    decreases |uri|
  {
    if |uri| < 2 then None
    else if ColonDigitAt(uri, 0) then Some(DigitRun(uri[1..]))
    else PortCapture(uri[1..])
  }

  /** The listener's port: the captured digits, or 3000 when the URI has no port. */
  function ListenerPort(redirectUri: string): (port: nat)
    ensures (forall i :: 0 <= i < |redirectUri| ==> !ColonDigitAt(redirectUri, i)) ==> port == DefaultPort
    ensures forall i :: FirstColonDigit(redirectUri, i) ==> port == ParseDecimal(DigitRun(redirectUri[i + 1..]))
  {
    PortCaptureLeftmost(redirectUri);
    LeftmostUnique(redirectUri);
    match PortCapture(redirectUri)
    case Some(digits) => ParseDecimal(digits)
    case None => DefaultPort
  }

  /** There is at most one leftmost ':'-digit place. */
  lemma LeftmostUnique(uri: string)
    ensures forall i, j :: FirstColonDigit(uri, i) && FirstColonDigit(uri, j) ==> i == j
  {
  }

  /** Index i is the leftmost place where ':' is followed by a digit. */
  predicate FirstColonDigit(uri: string, i: int) {
    ColonDigitAt(uri, i) && forall j :: 0 <= j < i ==> !ColonDigitAt(uri, j)
  }

  /** The capture is the maximal digit run after the leftmost ':' that precedes a digit. */
  lemma {:induction false} PortCaptureLeftmost(uri: string)
    ensures PortCapture(uri).None? <==> forall i :: 0 <= i < |uri| ==> !ColonDigitAt(uri, i)
    ensures PortCapture(uri).Some? ==>
              exists i :: FirstColonDigit(uri, i) && PortCapture(uri).value == DigitRun(uri[i + 1..])
    decreases |uri|
  {
    if |uri| < 2 {
      assert forall i :: 0 <= i < |uri| ==> !ColonDigitAt(uri, i);
    } else if ColonDigitAt(uri, 0) {
      assert FirstColonDigit(uri, 0);
    } else {
      var tail := uri[1..];
      PortCaptureLeftmost(tail);
      assert forall i :: 1 <= i < |uri| ==> (ColonDigitAt(uri, i) <==> ColonDigitAt(tail, i - 1));
      if PortCapture(tail).Some? {
        var i :| FirstColonDigit(tail, i) && PortCapture(tail).value == DigitRun(tail[i + 1..]);
        assert tail[i + 1..] == uri[i + 2..];
        assert FirstColonDigit(uri, i + 1);
      } else {
        assert forall i :: 0 <= i < |uri| ==> !ColonDigitAt(uri, i);
      }
    }
  }

  /** A port written after the host is found again, whatever the path after it. */
  lemma PortRoundTrip(host: string, port: nat, path: string)
    requires forall i :: 0 <= i < |host| ==> !ColonDigitAt(host, i)
    requires |path| == 0 || !IsDigit(path[0])
    ensures ListenerPort(host + ":" + NatToString(port) + path) == port
  {
    PortCaptureAfterHost(host, NatToString(port), path);
    ParseOfNatToString(port);
  }

  /** The capture of host ":" digits path is the digits. */
  lemma {:induction false} PortCaptureAfterHost(host: string, digits: string, path: string)
    requires forall i :: 0 <= i < |host| ==> !ColonDigitAt(host, i)
    requires |digits| > 0 && AllDigits(digits)
    requires |path| == 0 || !IsDigit(path[0])
    ensures PortCapture(host + ":" + digits + path) == Some(digits)
    decreases |host|
  {
    var uri := host + ":" + digits + path;
    if |host| == 0 {
      assert uri[1..] == digits + path;
      DigitRunOfDigits(digits, path);
    } else {
      assert uri[1..] == host[1..] + ":" + digits + path;
      assert !ColonDigitAt(uri, 0) by {
        if |host| > 1 {
          assert !ColonDigitAt(host, 0);
        }
      }
      assert forall i :: 0 <= i < |host[1..]| ==> !ColonDigitAt(host[1..], i) by {
        forall i | 0 <= i < |host[1..]|
          ensures !ColonDigitAt(host[1..], i)
        {
          assert !ColonDigitAt(host, i + 1);
        }
      }
      PortCaptureAfterHost(host[1..], digits, path);
    }
  }

  lemma {:induction false} DigitRunOfDigits(digits: string, rest: string)
    requires AllDigits(digits)
    requires |rest| == 0 || !IsDigit(rest[0])
    ensures DigitRun(digits + rest) == digits
    decreases |digits|
  {
    if |digits| > 0 {
      assert (digits + rest)[1..] == digits[1..] + rest;
      DigitRunOfDigits(digits[1..], rest);
    } else {
      assert digits + rest == rest;
    }
  }

  const LocalRedirectUri := "http://localhost:8888/callback"

  /** The usual local redirect URI listens on plain http at port 8888. */
  lemma LocalRedirect()
    ensures !UsesHttps(LocalRedirectUri)
    ensures ListenerPort(LocalRedirectUri) == 8888
  {
    assert LocalRedirectUri[4] == ':' && "https://"[4] == 's';
    LocalRedirectPort();
  }

  lemma LocalRedirectPort()
    ensures ListenerPort(LocalRedirectUri) == 8888
  {
    var host := "http://localhost";
    LocalHostHasNoPort(host);
    RenderPort();
    PortRoundTrip(host, 8888, "/callback");
    assert host + ":" + NatToString(8888) + "/callback" == LocalRedirectUri;
  }

  lemma LocalHostHasNoPort(host: string)
    requires host == "http://localhost"
    ensures forall i :: 0 <= i < |host| ==> !ColonDigitAt(host, i)
  {
    forall i | 0 <= i < |host|
      ensures !ColonDigitAt(host, i)
    {
      if i == 4 {
        assert host[5] == '/';
      } else {
        assert host[i] != ':';
      }
    }
  }

  lemma RenderPort()
    ensures NatToString(8888) == "8888"
  {
    assert NatToString(8) == "8";
    assert NatToString(88) == "88";
    assert NatToString(888) == "888";
  }
}

=== FILE: backoff.dfy ===
/**
 Retry with exponential backoff (utils.js). The operation is an oracle from
 the 1-based attempt number to what that call does; `sleep` is not performed
 but recorded: the method returns the delays it would have slept, in order.
 */
module Backoff {
  import opened Wrappers
  import opened Errors
  import Text
  import opened Arith

  /** The RETRY constants of config.js. */
  const MaxAttempts := 3
  const InitialDelay := 1000
  const BackoffMultiplier := 2

  function Pow(base: nat, exponent: nat): nat
    decreases exponent
  {
    if exponent == 0 then 1 else base * Pow(base, exponent - 1)
  }

  /** The delay slept after failed attempt number `attempt` (counted from 1). */
  function Delay(initial: nat, multiplier: nat, attempt: nat): nat
    requires attempt >= 1
  {
    initial * Pow(multiplier, attempt - 1)
  }

  /** The delays after failed attempts 1 through `n`, in order. */
  function Schedule(initial: nat, multiplier: nat, n: nat): (s: seq<nat>)
    ensures |s| == n
    ensures forall i :: 0 <= i < n ==> s[i] == Delay(initial, multiplier, i + 1)
    decreases n
  {
    if n == 0 then [] else Schedule(initial, multiplier, n - 1) + [Delay(initial, multiplier, n)]
  }

  function Total(s: seq<nat>): nat
    decreases |s|
  {
    if |s| == 0 then 0 else Total(s[..|s| - 1]) + s[|s| - 1]
  }

  /** What one call of the operation does: resolve with a value or throw. */
  datatype Attempt<T> = Returned(value: T) | Threw(error: Error)

  /** The message of the RetryableError thrown when every attempt failed. */
  function ExhaustedMessage(maxAttempts: nat, last: Error): string {
    "Failed after " + Text.NatToString(maxAttempts) + " attempts: " + last.message
  }

  /**
   `retryWithBackoff(fn, maxAttempts)`. `result` is `Success(Some(v))` when a call
   resolved with `v`, `Success(None)` when the loop never ran (the async function
   resolves to undefined), and `Failure` when the last allowed attempt threw.
   */
  method RetryWithBackoff<T>(fn: nat -> Attempt<T>, maxAttempts: int)
    returns (result: Result<Option<T>, Error>, calls: nat, delays: seq<nat>)
    // fn is called for attempts 1..calls, never more than maxAttempts times
    ensures maxAttempts <= 0 ==> calls == 0 && result == Success(None)
    ensures maxAttempts > 0 ==> 1 <= calls <= maxAttempts
    // every call before the last one threw
    ensures forall i :: 1 <= i < calls ==> fn(i).Threw?
    // the first value returned is passed through, with no further calls
    ensures result.Success? && calls > 0 ==> fn(calls).Returned? && result.value == Some(fn(calls).value)
    // exhaustion: all maxAttempts calls threw; the last error is wrapped unchanged
    ensures result.Failure? ==>
              && maxAttempts > 0 && calls == maxAttempts && fn(calls).Threw?
              && result.error == NewRetryableError(ExhaustedMessage(maxAttempts, fn(calls).error), fn(calls).error)
    // one delay after every failed call except the final one
    ensures calls > 0 ==> |delays| == calls - 1
    ensures calls == 0 ==> delays == []
    ensures delays == Schedule(InitialDelay, BackoffMultiplier, |delays|)
  {
    calls := 0;
    delays := [];
    var attempt := 1;
    while attempt <= maxAttempts
      invariant 1 <= attempt
      invariant maxAttempts >= 1 ==> attempt <= maxAttempts
      invariant maxAttempts < 1 ==> attempt == 1
      invariant calls == attempt - 1
      invariant forall i :: 1 <= i < attempt ==> fn(i).Threw?
      invariant delays == Schedule(InitialDelay, BackoffMultiplier, attempt - 1)
      decreases maxAttempts - attempt
    {
      calls := attempt;
      match fn(attempt)
      case Returned(v) =>
        result := Success(Some(v));
        return;
      case Threw(e) =>
        if attempt == maxAttempts {
          result := Failure(NewRetryableError(ExhaustedMessage(maxAttempts, e), e));
          return;
        }
        delays := delays + [Delay(InitialDelay, BackoffMultiplier, attempt)];
      attempt := attempt + 1;
    }
    result := Success(None);
  }

  lemma {:induction false} PowGrows(base: nat, e: nat)
    requires base > 1
    ensures Pow(base, e) < Pow(base, e + 1)
  {
    assert Pow(base, e + 1) == base * Pow(base, e);
    PowPositive(base, e);
  }

  lemma {:induction false} PowPositive(base: nat, e: nat)
    requires base > 0
    ensures Pow(base, e) > 0
    decreases e
  {
    if e > 0 {
      PowPositive(base, e - 1);
    }
  }

  /** With a multiplier above 1 every delay is longer than the one before. */
  lemma {:induction false} DelaysIncrease(initial: nat, multiplier: nat, a: nat, b: nat)
    requires initial > 0 && multiplier > 1
    requires 1 <= a < b
    ensures Delay(initial, multiplier, a) < Delay(initial, multiplier, b)
    decreases b - a
  {
    DelayStep(initial, multiplier, b - 1);
    if a < b - 1 {
      DelaysIncrease(initial, multiplier, a, b - 1);
    }
  }

  /** One step of the schedule: the delay after attempt k + 1 exceeds the one after attempt k. */
  lemma DelayStep(initial: nat, multiplier: nat, k: nat)
    requires initial > 0 && multiplier > 1 && k >= 1
    ensures Delay(initial, multiplier, k) < Delay(initial, multiplier, k + 1)
  {
    var p := Pow(multiplier, k - 1);
    var q := Pow(multiplier, k);
    PowGrows(multiplier, k - 1);
    MulStrict(p, q, initial);
  }

  /** The recorded schedule is strictly increasing when the multiplier exceeds 1. */
  lemma ScheduleIncreasing(initial: nat, multiplier: nat, n: nat, i: nat, j: nat)
    requires initial > 0 && multiplier > 1
    requires i < j < n
    ensures Schedule(initial, multiplier, n)[i] < Schedule(initial, multiplier, n)[j]
  {
    DelaysIncrease(initial, multiplier, i + 1, j + 1);
  }

  /** Geometric sum: the n delays add up to initial * (multiplier^n - 1) / (multiplier - 1). */
  lemma {:induction false} ScheduleTotal(initial: nat, multiplier: nat, n: nat)
    ensures (multiplier - 1) * Total(Schedule(initial, multiplier, n)) == initial * (Pow(multiplier, n) - 1)
    decreases n
  {
    if n > 0 {
      var prev := Schedule(initial, multiplier, n - 1);
      var p := Pow(multiplier, n - 1);
      ScheduleTotal(initial, multiplier, n - 1);
      assert Schedule(initial, multiplier, n) == prev + [initial * p];
      TotalSnoc(prev, initial * p);
      assert Pow(multiplier, n) == multiplier * p;
      GeometricStep(multiplier, initial, p, Total(prev));
    }
  }

  lemma TotalSnoc(s: seq<nat>, x: nat)
    ensures Total(s + [x]) == Total(s) + x
  {
    assert (s + [x])[..|s|] == s;
  }

  /** The arithmetic of one induction step of ScheduleTotal. */
  lemma GeometricStep(m: int, a: int, p: int, t: int)
    requires (m - 1) * t == a * (p - 1)
    ensures (m - 1) * (t + a * p) == a * (m * p - 1)
  {
    Distribute(m - 1, t, a * p);
    Distribute(a, p, -1);
    Distribute(a, m * p, -1);
    assert (m - 1) * (a * p) == m * (a * p) - a * p by {
      Distribute(a * p, m, -1);
    }
    assert m * (a * p) == a * (m * p);
  }

  /** With the configured constants, three failing calls sleep 1000 ms and then 2000 ms. */
  lemma ConfiguredSchedule()
    ensures Schedule(InitialDelay, BackoffMultiplier, MaxAttempts - 1) == [1000, 2000]
    ensures Total(Schedule(InitialDelay, BackoffMultiplier, MaxAttempts - 1)) == 3000
  {
    var s := Schedule(InitialDelay, BackoffMultiplier, 2);
    assert s[..1] == [1000];
    assert s[..1][..0] == [];
    assert Total(s[..1]) == 1000;
  }
}

=== FILE: errors.dfy ===
/**
 The error hierarchy of errors.js as one datatype. Each constructor is one
 JavaScript class; `PlainError` stands for a built-in `Error` (what the
 selector throws and what the remote API client rejects with). The class
 constructors, with their default arguments, are the `New…` functions.
 */
module Errors {
  import opened Wrappers

  const SpotifyErrorCode := "SPOTIFY_ERROR"
  const AuthErrorCode := "AUTH_ERROR"
  const TokenExpiredCode := "TOKEN_EXPIRED"
  const ConfigErrorCode := "CONFIG_ERROR"
  const RetryableErrorCode := "RETRYABLE_ERROR"

  const DefaultAuthMessage := "Authentication failed"
  const DefaultExpiredMessage := "Access token expired"

  datatype Error =
    | PlainError(message: string)
    | SpotifyError(message: string, code: string)
    | AuthenticationError(message: string)
    | TokenExpiredError(message: string)
    | ConfigurationError(message: string)
    | RetryableError(message: string, originalError: Error)
  {
    /** `error instanceof SpotifyError`: every class but the built-in one and ConfigurationError. */
    predicate IsSpotifyError() {
      SpotifyError? || AuthenticationError? || TokenExpiredError? || RetryableError?
    }

    /** The `code` property; a built-in error has none. */
    function Code(): Option<string> {
      match this
      case PlainError(_) => None
      case SpotifyError(_, c) => Some(c)
      case AuthenticationError(_) => Some(AuthErrorCode)
      case TokenExpiredError(_) => Some(TokenExpiredCode)
      case ConfigurationError(_) => Some(ConfigErrorCode)
      case RetryableError(_, _) => Some(RetryableErrorCode)
    }

    /** The `name` property. */
    function Name(): string {
      match this
      case PlainError(_) => "Error"
      case SpotifyError(_, _) => "SpotifyError"
      case AuthenticationError(_) => "AuthenticationError"
      case TokenExpiredError(_) => "TokenExpiredError"
      case ConfigurationError(_) => "ConfigurationError"
      case RetryableError(_, _) => "RetryableError"
    }
  }

  /** `new SpotifyError(message, code)`; an omitted code defaults to SPOTIFY_ERROR. */
  function NewSpotifyError(message: string, code: Option<string>): (e: Error)
    ensures e.IsSpotifyError() && e.Name() == "SpotifyError"
    ensures e.message == message
    ensures code.None? ==> e.Code() == Some(SpotifyErrorCode)
    ensures code.Some? ==> e.Code() == code
  {
    SpotifyError(message, code.GetOr(SpotifyErrorCode))
  }

  /** `new AuthenticationError(message)`: a SpotifyError with code AUTH_ERROR. */
  function NewAuthenticationError(message: Option<string>): (e: Error)
    ensures e.IsSpotifyError() && e.Name() == "AuthenticationError"
    ensures e.Code() == Some(AuthErrorCode)
    ensures message.None? ==> e.message == DefaultAuthMessage
    ensures message.Some? ==> e.message == message.value
  {
    AuthenticationError(message.GetOr(DefaultAuthMessage))
  }

  /** `new TokenExpiredError(message)`: a SpotifyError with code TOKEN_EXPIRED. */
  function NewTokenExpiredError(message: Option<string>): (e: Error)
    ensures e.IsSpotifyError() && e.Name() == "TokenExpiredError"
    ensures e.Code() == Some(TokenExpiredCode)
    ensures message.None? ==> e.message == DefaultExpiredMessage
    ensures message.Some? ==> e.message == message.value
  {
    TokenExpiredError(message.GetOr(DefaultExpiredMessage))
  }

  /** `new ConfigurationError(message)`: NOT a SpotifyError, yet it carries code CONFIG_ERROR. */
  function NewConfigurationError(message: string): (e: Error)
    ensures !e.IsSpotifyError() && e.Name() == "ConfigurationError"
    ensures e.Code() == Some(ConfigErrorCode)
    ensures e.message == message
  {
    ConfigurationError(message)
  }

  /** `new RetryableError(message, originalError)`: keeps the cause unchanged. */
  function NewRetryableError(message: string, originalError: Error): (e: Error)
    ensures e.IsSpotifyError() && e.Name() == "RetryableError"
    ensures e.Code() == Some(RetryableErrorCode)
    ensures e.message == message
    ensures e.RetryableError? && e.originalError == originalError
  {
    RetryableError(message, originalError)
  }
}

=== FILE: fetcher.dfy ===
/**
 Library aggregation (song-fetcher.js): offset pagination over a collection,
 the walk over the user's own playlists, the restart of a sub-fetch after a
 successful token refresh, and `getAllSongs`.

 The remote API is a script of replies. A walk over one collection gets the
 replies to its successive page requests; a request beyond the script receives
 an empty page, as a request past the end of a collection does. A sub-fetch
 gets one run per (re)start; a run beyond the script sees an empty collection.
 */
module Fetcher {
  import opened Wrappers
  import opened Errors
  import opened Tracks
  import Text
  import Auth
  import opened Arith

  /** Page sizes hard-coded in song-fetcher.js. */
  const SavedPageSize := 50
  const PlaylistPageSize := 100

  /** The text whose presence in an error message marks an expired access token. */
  const ExpiredMarker := "access token expired"

  /** The reply to one page request: a page of items, or a rejection. */
  datatype PageReply = Page(items: seq<Item>) | PageFailed(error: Error)

  /** A walk: the tracks gathered, the offsets requested in order, and the error that ended it. */
  datatype Walk = Walk(tracks: seq<Track>, offsets: seq<nat>, error: Option<Error>)

  /** A page after which the loop requests the next one: non-empty and not shorter than the limit. */
  predicate Continues(reply: PageReply, limit: nat) {
    reply.Page? && |reply.items| > 0 && |reply.items| >= limit
  }

  /**
   The `while (true)` loop of `getSavedTracks` and `getTracksFromPlaylist`:
   request `limit` items at `offset`, stop on an empty page, keep the non-null
   tracks, advance the offset, stop on a short page. A rejection leaves the loop
   with the tracks gathered so far.
   */
  function WalkPages(replies: seq<PageReply>, offset: nat, limit: nat, source: Source): (w: Walk)
    ensures 1 <= |w.offsets| <= |replies| + 1
    ensures forall i :: 0 <= i < |w.offsets| ==> w.offsets[i] == offset + i * limit
    ensures forall i :: 0 <= i < |w.tracks| ==> w.tracks[i].source == source
    decreases |replies|
  {
    if |replies| == 0 then Walk([], [offset], None)
    else match replies[0]
      case PageFailed(e) => Walk([], [offset], Some(e))
      case Page(items) =>
        if |items| == 0 then Walk([], [offset], None)
        else
          var kept := Normalize(items, source);
          if |items| < limit then Walk(kept, [offset], None)
          else
            var rest := WalkPages(replies[1..], offset + limit, limit, source);
            Walk(kept + rest.tracks, [offset] + rest.offsets, rest.error)
  }

  /** The items of the pages among `replies`, in order. */
  function ItemsOf(replies: seq<PageReply>): seq<Item>
    decreases |replies|
  {
    if |replies| == 0 then []
    else (if replies[0].Page? then replies[0].items else []) + ItemsOf(replies[1..])
  }

  /**
   What a walk is, independently of the loop: every request but the last got a
   full page; the last got an empty, short or failed reply (or ran past the
   script); the error is that of the last request; and the tracks are the
   normalised items of all pages fetched, in page order.
   */
  predicate WalkMatches(replies: seq<PageReply>, limit: nat, source: Source, w: Walk) {
    var n := |w.offsets|;
    && 1 <= n <= |replies| + 1
    && (forall i :: 0 <= i < n - 1 ==> Continues(replies[i], limit))
    && (n - 1 == |replies| || !Continues(replies[n - 1], limit))
    && (w.error.Some? <==> n - 1 < |replies| && replies[n - 1].PageFailed?)
    && (w.error.Some? ==> w.error.value == replies[n - 1].error)
    && w.tracks == Normalize(ItemsOf(replies[..Min(n, |replies|)]), source)
  }

  lemma {:induction false} WalkPagesMatches(replies: seq<PageReply>, offset: nat, limit: nat, source: Source)
    ensures WalkMatches(replies, limit, source, WalkPages(replies, offset, limit, source))
    decreases |replies|
  {
    if |replies| > 0 {
      if Continues(replies[0], limit) {
        WalkPagesMatches(replies[1..], offset + limit, limit, source);
        WalkContinues(replies, offset, limit, source);
      } else {
        WalkStops(replies, offset, limit, source);
      }
    }
  }

  /** The walk ends at a first reply that is not a full page. */
  lemma WalkStops(replies: seq<PageReply>, offset: nat, limit: nat, source: Source)
    requires |replies| > 0 && !Continues(replies[0], limit)
    ensures WalkMatches(replies, limit, source, WalkPages(replies, offset, limit, source))
  {
    var head := if replies[0].Page? then replies[0].items else [];
    assert replies[..1][1..] == [];
    assert ItemsOf(replies[..1]) == head + ItemsOf([]);
    assert head + [] == head;
  }

  /** After a full first page, the walk is that page followed by the walk from the next offset. */
  lemma WalkContinues(replies: seq<PageReply>, offset: nat, limit: nat, source: Source)
    requires |replies| > 0 && Continues(replies[0], limit)
    requires WalkMatches(replies[1..], limit, source, WalkPages(replies[1..], offset + limit, limit, source))
    ensures WalkMatches(replies, limit, source, WalkPages(replies, offset, limit, source))
  {
    var rest := WalkPages(replies[1..], offset + limit, limit, source);
    var w := WalkPages(replies, offset, limit, source);
    var m := |rest.offsets|;
    WalkFullFirst(replies, offset, limit, source);
    assert |w.offsets| == m + 1 && w.error == rest.error;
    WalkContinuesTracks(replies, offset, limit, source);
    WalkContinuesOffsets(replies, limit, m);
    if m < |replies| {
      assert replies[m] == replies[1..][m - 1];
    }
  }

  /** The replies part of WalkContinues: one more full page in front. */
  lemma WalkContinuesOffsets(replies: seq<PageReply>, limit: nat, m: nat)
    requires |replies| > 0 && Continues(replies[0], limit)
    requires 1 <= m <= |replies|
    requires forall i :: 0 <= i < m - 1 ==> Continues(replies[1..][i], limit)
    ensures forall i :: 0 <= i < m ==> Continues(replies[i], limit)
  {
    forall i | 0 <= i < m
      ensures Continues(replies[i], limit)
    {
      if i > 0 {
        assert replies[i] == replies[1..][i - 1];
      }
    }
  }

  /** The tracks part of WalkContinues: the first page's tracks, then those of the pages after it. */
  lemma WalkContinuesTracks(replies: seq<PageReply>, offset: nat, limit: nat, source: Source)
    requires |replies| > 0 && Continues(replies[0], limit)
    requires var rest := WalkPages(replies[1..], offset + limit, limit, source);
             rest.tracks == Normalize(ItemsOf(replies[1..][..Min(|rest.offsets|, |replies| - 1)]), source)
    ensures var n := |WalkPages(replies, offset, limit, source).offsets|;
            WalkPages(replies, offset, limit, source).tracks == Normalize(ItemsOf(replies[..Min(n, |replies|)]), source)
  {
    var items := replies[0].items;
    var rest := WalkPages(replies[1..], offset + limit, limit, source);
    var w := WalkPages(replies, offset, limit, source);
    WalkFullFirst(replies, offset, limit, source);
    var taken := Min(|rest.offsets|, |replies| - 1);
    assert Min(|w.offsets|, |replies|) == taken + 1;
    var later := ItemsOf(replies[1..][..taken]);
    ItemsOfFirst(replies, taken);
    NormalizeAppend(items, later, source);
    assert w.tracks == Normalize(items, source) + Normalize(later, source);
  }

  lemma ItemsOfFirst(replies: seq<PageReply>, taken: nat)
    requires |replies| > 0 && replies[0].Page? && taken < |replies|
    ensures ItemsOf(replies[..taken + 1]) == replies[0].items + ItemsOf(replies[1..][..taken])
  {
    assert replies[..taken + 1][1..] == replies[1..][..taken];
  }

  /** A collection served by offset and limit: full pages, then the remainder. */
  function Paged(items: seq<Item>, limit: nat): seq<PageReply>
    requires limit > 0
    decreases |items|
  {
    if |items| == 0 then []
    else if |items| <= limit then [Page(items)]
    else [Page(items[..limit])] + Paged(items[limit..], limit)
  }

  /**
   Walking a collection served page by page retrieves all of it, once and in
   order, in |items| / limit + 1 requests.
   */
  lemma {:induction false} WalkPagedCollection(items: seq<Item>, offset: nat, limit: nat, source: Source)
    requires limit > 0
    ensures WalkPages(Paged(items, limit), offset, limit, source).tracks == Normalize(items, source)
    ensures WalkPages(Paged(items, limit), offset, limit, source).error == None
    ensures PageCount(|WalkPages(Paged(items, limit), offset, limit, source).offsets|, limit, |items|)
    decreases |items|
  {
    if |items| > limit {
      WalkPagedCollection(items[limit..], offset + limit, limit, source);
      WalkPagedStep(items, offset, limit, source);
    } else {
      WalkPagedLast(items, offset, limit, source);
    }
  }

  /** k requests are what a collection of n items needs at this limit: (k - 1) * limit <= n < k * limit. */
  predicate PageCount(k: nat, limit: nat, n: nat) {
    (k - 1) * limit <= n < k * limit
  }

  lemma PageCountStep(k: nat, limit: nat, n: nat)
    requires limit <= n && PageCount(k, limit, n - limit)
    ensures PageCount(k + 1, limit, n)
  {
    assert (k + 1 - 1) * limit == (k - 1) * limit + limit;
    assert (k + 1) * limit == k * limit + limit;
  }

  /** A collection that fits in one page: one request, or two when the page is exactly full. */
  lemma WalkPagedLast(items: seq<Item>, offset: nat, limit: nat, source: Source)
    requires 0 < limit && |items| <= limit
    ensures WalkPages(Paged(items, limit), offset, limit, source).tracks == Normalize(items, source)
    ensures WalkPages(Paged(items, limit), offset, limit, source).error == None
    ensures PageCount(|WalkPages(Paged(items, limit), offset, limit, source).offsets|, limit, |items|)
  {
    if |items| == limit {
      var pages := Paged(items, limit);
      assert pages == [Page(items)];
      assert pages[1..] == [];
      var w := WalkPages(pages, offset, limit, source);
      assert w == Walk(Normalize(items, source) + [], [offset] + [offset + limit], None);
      assert Normalize(items, source) + [] == Normalize(items, source);
    } else if |items| > 0 {
      assert Paged(items, limit) == [Page(items)];
    }
  }

  /** After a full first page the walk continues from the next offset. */
  lemma WalkFullFirst(replies: seq<PageReply>, offset: nat, limit: nat, source: Source)
    requires |replies| > 0 && Continues(replies[0], limit)
    ensures var rest := WalkPages(replies[1..], offset + limit, limit, source);
            WalkPages(replies, offset, limit, source)
            == Walk(Normalize(replies[0].items, source) + rest.tracks, [offset] + rest.offsets, rest.error)
  {
  }

  /** The induction step of WalkPagedCollection: a full first page, then the rest of the collection. */
  lemma WalkPagedStep(items: seq<Item>, offset: nat, limit: nat, source: Source)
    requires 0 < limit < |items|
    requires var rest := WalkPages(Paged(items[limit..], limit), offset + limit, limit, source);
             && rest.tracks == Normalize(items[limit..], source)
             && rest.error == None
             && PageCount(|rest.offsets|, limit, |items| - limit)
    ensures WalkPages(Paged(items, limit), offset, limit, source).tracks == Normalize(items, source)
    ensures WalkPages(Paged(items, limit), offset, limit, source).error == None
    ensures PageCount(|WalkPages(Paged(items, limit), offset, limit, source).offsets|, limit, |items|)
  {
    var pages := Paged(items, limit);
    PagedFirst(items, limit);
    var rest := WalkPages(pages[1..], offset + limit, limit, source);
    var w := WalkPages(pages, offset, limit, source);
    WalkFullFirst(pages, offset, limit, source);
    assert w.tracks == Normalize(items[..limit], source) + rest.tracks;
    assert |w.offsets| == |rest.offsets| + 1;
    SplitNormalize(items, limit, source);
    PageCountStep(|rest.offsets|, limit, |items|);
  }

  /** A collection larger than one page is served as a full first page, then the rest. */
  lemma PagedFirst(items: seq<Item>, limit: nat)
    requires 0 < limit < |items|
    ensures |Paged(items, limit)| > 0
    ensures Paged(items, limit)[0] == Page(items[..limit]) && Continues(Paged(items, limit)[0], limit)
    ensures Paged(items, limit)[1..] == Paged(items[limit..], limit)
  {
  }

  lemma SplitNormalize(items: seq<Item>, limit: nat, source: Source)
    requires limit <= |items|
    ensures Normalize(items, source) == Normalize(items[..limit], source) + Normalize(items[limit..], source)
  {
    NormalizeAppend(items[..limit], items[limit..], source);
    assert items[..limit] + items[limit..] == items;
  }

  // ---------------------------------------------------------------------------
  // Playlists

  datatype PlaylistEntry = PlaylistEntry(id: string, ownerId: string)

  /** The reply of `getMe()`: the current user's id, or a rejection. */
  datatype MeReply = Me(userId: string) | MeFailed(error: Error)

  /**
   One element of the first page of `getUserPlaylists()`, with the replies the
   API gives while the loop is at it: the `getMe()` call made for it and the
   page requests of its tracks.
   */
  datatype PlaylistVisit = PlaylistVisit(playlist: PlaylistEntry, me: MeReply, pages: seq<PageReply>)

  /** The reply of `getUserPlaylists()`: only its first page is ever examined. */
  datatype ListingReply = Listed(visits: seq<PlaylistVisit>) | ListingFailed(error: Error)

  /** What a sub-fetch run produced: the tracks gathered and the error that ended it. */
  datatype Fetched = Fetched(tracks: seq<Track>, error: Option<Error>)

  /** The loop compares the playlist's owner with the current user's id. */
  predicate Owned(v: PlaylistVisit) {
    v.me.Me? && v.playlist.ownerId == v.me.userId
  }

  /** `getTracksFromPlaylist(id)`: a walk with page size 100 whose errors are swallowed, never refreshed. */
  function GetTracksFromPlaylist(pages: seq<PageReply>): (tracks: seq<Track>)
    ensures forall i :: 0 <= i < |tracks| ==> tracks[i].source == Playlist
  {
    WalkPages(pages, 0, PlaylistPageSize, Playlist).tracks
  }

  /** The `for … of` loop of `getPlaylistTracks`; a failing `getMe()` leaves it with what it has. */
  function VisitPlaylists(visits: seq<PlaylistVisit>): (f: Fetched)
    ensures f.error.Some? <==> exists i :: 0 <= i < |visits| && visits[i].me.MeFailed?
    ensures forall i :: 0 <= i < |f.tracks| ==> f.tracks[i].source == Playlist
    decreases |visits|
  {
    if |visits| == 0 then Fetched([], None)
    else match visits[0].me
      case MeFailed(e) => Fetched([], Some(e))
      case Me(userId) =>
        var here := if visits[0].playlist.ownerId == userId then GetTracksFromPlaylist(visits[0].pages) else [];
        var rest := VisitPlaylists(visits[1..]);
        assert forall i :: 1 <= i < |visits| ==> visits[i] == visits[1..][i - 1];
        Fetched(here + rest.tracks, rest.error)
  }

  /** Only playlists owned by the current user contribute tracks. */
  lemma {:induction false} OnlyOwnedPlaylistsContribute(visits: seq<PlaylistVisit>, t: Track)
    requires t in VisitPlaylists(visits).tracks
    ensures exists i :: 0 <= i < |visits| && Owned(visits[i]) && t in GetTracksFromPlaylist(visits[i].pages)
    decreases |visits|
  {
    var v := visits[0];
    if Owned(v) && t in GetTracksFromPlaylist(v.pages) {
      assert Owned(visits[0]);
    } else {
      OnlyOwnedPlaylistsContribute(visits[1..], t);
      var i :| 0 <= i < |visits[1..]| && Owned(visits[1..][i]) && t in GetTracksFromPlaylist(visits[1..][i].pages);
      assert visits[i + 1] == visits[1..][i];
    }
  }

  /** When every `getMe()` succeeds, every track of every owned playlist is gathered. */
  lemma {:induction false} OwnedPlaylistsAllContribute(visits: seq<PlaylistVisit>, i: nat, t: Track)
    requires forall j :: 0 <= j < |visits| ==> visits[j].me.Me?
    requires i < |visits| && Owned(visits[i]) && t in GetTracksFromPlaylist(visits[i].pages)
    ensures t in VisitPlaylists(visits).tracks
    decreases |visits|
  {
    if i > 0 {
      assert visits[1..][i - 1] == visits[i];
      OwnedPlaylistsAllContribute(visits[1..], i - 1, t);
    }
  }

  /** The index of the first visit whose `getMe()` call fails, or |visits| when none does. */
  function FirstMeFailure(visits: seq<PlaylistVisit>): (k: nat)
    ensures k <= |visits|
    ensures forall j :: 0 <= j < k ==> visits[j].me.Me?
    ensures k < |visits| ==> visits[k].me.MeFailed?
    decreases |visits|
  {
    if |visits| == 0 || visits[0].me.MeFailed? then 0
    else
      var k := 1 + FirstMeFailure(visits[1..]);
      assert forall j :: 1 <= j < |visits| ==> visits[j] == visits[1..][j - 1];
      k
  }

  /** What one visit adds: the tracks of an owned playlist, nothing otherwise. */
  function Contribution(v: PlaylistVisit): seq<Track> {
    if Owned(v) then GetTracksFromPlaylist(v.pages) else []
  }

  /** What each visit adds, in listing order. */
  function Contributions(visits: seq<PlaylistVisit>): (cs: seq<seq<Track>>)
    ensures |cs| == |visits|
    ensures forall i :: 0 <= i < |visits| ==> cs[i] == Contribution(visits[i])
  {
    seq(|visits|, i requires 0 <= i < |visits| => Contribution(visits[i]))
  }

  /** The parts one after the other, defined from the back. */
  function Flatten<T>(parts: seq<seq<T>>): seq<T>
    decreases |parts|
  {
    if |parts| == 0 then [] else Flatten(parts[..|parts| - 1]) + parts[|parts| - 1]
  }

  /** Flatten can also be taken from the front. */
  lemma {:induction false} FlattenCons<T>(parts: seq<seq<T>>)
    requires |parts| > 0
    ensures Flatten(parts) == parts[0] + Flatten(parts[1..])
    decreases |parts|
  {
    var n := |parts|;
    if n == 1 {
      assert parts[..0] == [] && parts[1..] == [];
      assert Flatten(parts) == [] + parts[0];
    } else {
      var init := parts[..n - 1];
      FlattenCons(init);
      var tail := parts[1..];
      assert tail[..n - 2] == init[1..];
      assert tail[n - 2] == parts[n - 1];
      var mid := Flatten(init[1..]);
      assert Flatten(tail) == mid + parts[n - 1];
      assert (parts[0] + mid) + parts[n - 1] == parts[0] + (mid + parts[n - 1]);
    }
  }

  /**
   The reference definition: the tracks of the owned playlists among `visits`,
   playlist after playlist in listing order, each in its own page order.
   */
  function OwnedTracks(visits: seq<PlaylistVisit>): seq<Track> {
    Flatten(Contributions(visits))
  }

  /** OwnedTracks taken from the front. */
  lemma OwnedTracksCons(visits: seq<PlaylistVisit>)
    requires |visits| > 0
    ensures OwnedTracks(visits) == Contribution(visits[0]) + OwnedTracks(visits[1..])
  {
    var cs := Contributions(visits);
    FlattenCons(cs);
    assert cs[1..] == Contributions(visits[1..]);
  }

  /**
   The playlist loop gathers, in listing order, the tracks of the owned
   playlists visited before the first failing `getMe()`, keeps them, and ends
   with that call's error; with no failure it gathers every owned playlist.
   */
  lemma {:induction false} VisitPlaylistsGathers(visits: seq<PlaylistVisit>)
    ensures var k := FirstMeFailure(visits);
            VisitPlaylists(visits).tracks == OwnedTracks(visits[..k])
    ensures var k := FirstMeFailure(visits);
            VisitPlaylists(visits).error == if k < |visits| then Some(visits[k].me.error) else None
    decreases |visits|
  {
    if |visits| == 0 || visits[0].me.MeFailed? {
      assert visits[..0] == [];
    } else {
      var rest := visits[1..];
      var k := FirstMeFailure(visits);
      var k1 := FirstMeFailure(rest);
      assert k == k1 + 1;
      VisitPlaylistsGathers(rest);
      var prefix := visits[..k];
      assert prefix[0] == visits[0];
      assert prefix[1..] == rest[..k1];
      OwnedTracksCons(prefix);
      if k < |visits| {
        assert visits[k] == rest[k1];
      }
    }
  }

  /**
   A playlist run whose listing succeeds and which meets no expired token
   returns the tracks of the owned playlists visited before any failing
   `getMe()`: the error is swallowed and the tracks gathered are kept.
   */
  lemma PlaylistRunWithoutExpiry(env: Auth.Environment, now: nat, runs: seq<PlaylistRun>)
    requires |runs| > 0 && runs[0].listing.Listed?
    requires var visits := runs[0].listing.visits;
             var k := FirstMeFailure(visits);
             k < |visits| ==> !IsTokenExpiry(visits[k].me.error)
    ensures var visits := runs[0].listing.visits;
            GetPlaylistTracks(env, now, runs) == Success(OwnedTracks(visits[..FirstMeFailure(visits)]))
  {
    VisitPlaylistsGathers(runs[0].listing.visits);
  }

  // ---------------------------------------------------------------------------
  // Sub-fetches and the token-expired restart

  /** One run of the saved-tracks sub-fetch and the refresh reply it gets if it ends expired. */
  datatype SavedRun = SavedRun(pages: seq<PageReply>, refresh: Auth.RefreshReply)

  /** One run of the playlist sub-fetch and the refresh reply it gets if it ends expired. */
  datatype PlaylistRun = PlaylistRun(listing: ListingReply, refresh: Auth.RefreshReply)

  /** `error.message.includes('access token expired')`. */
  predicate IsTokenExpiry(e: Error) {
    Text.Contains(e.message, ExpiredMarker)
  }

  /** What the `catch` of a sub-fetch does with how its run ended; a restart carries the token file the refresh wrote. */
  datatype RunEnd = Finish(tracks: seq<Track>) | Restart(written: Auth.TokenFile) | Propagate(error: Error)

  /**
   The `catch` block of `getSavedTracks` and `getPlaylistTracks`. An expiry
   error triggers `new SpotifyAuth().refreshTokens()`: success restarts the
   sub-fetch, and a throw (never a `false`) propagates. Any other error is
   logged and the tracks gathered so far are returned.
   */
  function EndRun(fetched: Fetched, env: Auth.Environment, now: nat, refresh: Auth.RefreshReply): (end: RunEnd)
    ensures end.Finish? <==> fetched.error.None? || !IsTokenExpiry(fetched.error.value)
    ensures end.Finish? ==> end.tracks == fetched.tracks
    ensures end.Restart? <==>
              fetched.error.Some? && IsTokenExpiry(fetched.error.value)
              && Auth.RefreshFromNewInstance(env, now, refresh).Success?
    ensures end.Propagate? ==> end.error == Auth.RefreshFromNewInstance(env, now, refresh).error
    // the refreshing instance held no refresh token, so the file it wrote holds none
    ensures end.Restart? ==> end.written.TokenFileHolds? && end.written.record.refreshToken == None
  {
    match fetched.error
    case None => Finish(fetched.tracks)
    case Some(e) =>
      if !IsTokenExpiry(e) then Finish(fetched.tracks)
      else match Auth.RefreshFromNewInstance(env, now, refresh)
        case Success(state) => Restart(state.tokenFile)
        case Failure(err) => Propagate(err)
  }

  /** One run of `getSavedTracks`: a walk with page size 50 from offset 0. */
  function SavedWalk(run: SavedRun): (w: Walk)
    ensures |w.offsets| >= 1 && w.offsets[0] == 0
  {
    WalkPages(run.pages, 0, SavedPageSize, Saved)
  }

  /** How one run of `getSavedTracks` ends. */
  function SavedEnd(env: Auth.Environment, now: nat, run: SavedRun): RunEnd {
    var w := SavedWalk(run);
    EndRun(Fetched(w.tracks, w.error), env, now, run.refresh)
  }

  /** `getSavedTracks()`: a restart begins again from offset 0 and drops what the expired run gathered. */
  function GetSavedTracks(env: Auth.Environment, now: nat, runs: seq<SavedRun>): (r: Result<seq<Track>, Error>)
    ensures r.Success? ==> forall i :: 0 <= i < |r.value| ==> r.value[i].source == Saved
    ensures r.Failure? ==> r.error.ConfigurationError? || r.error.TokenExpiredError?
    decreases |runs|
  {
    if |runs| == 0 then Success([])
    else
      match SavedEnd(env, now, runs[0])
      case Finish(tracks) => Success(tracks)
      case Restart(_) => GetSavedTracks(env, now, runs[1..])
      case Propagate(e) => Failure(e)
  }

  /** One run of `getPlaylistTracks`. */
  function PlaylistFetch(run: PlaylistRun): (f: Fetched)
    ensures forall i :: 0 <= i < |f.tracks| ==> f.tracks[i].source == Playlist
    // a failed listing gathers nothing and is rethrown as it is
    ensures run.listing.ListingFailed? ==> f == Fetched([], Some(run.listing.error))
  {
    match run.listing
    case ListingFailed(e) => Fetched([], Some(e))
    case Listed(visits) => VisitPlaylists(visits)
  }

  /** `getPlaylistTracks()`, restarted from the playlist listing after a successful refresh. */
  function GetPlaylistTracks(env: Auth.Environment, now: nat, runs: seq<PlaylistRun>): (r: Result<seq<Track>, Error>)
    ensures r.Success? ==> forall i :: 0 <= i < |r.value| ==> r.value[i].source == Playlist
    ensures r.Failure? ==> r.error.ConfigurationError? || r.error.TokenExpiredError?
    decreases |runs|
  {
    if |runs| == 0 then Success([])
    else match PlaylistEnd(env, now, runs[0])
      case Finish(tracks) => Success(tracks)
      case Restart(_) => GetPlaylistTracks(env, now, runs[1..])
      case Propagate(e) => Failure(e)
  }

  /** How one run of `getPlaylistTracks()` ends. */
  function PlaylistEnd(env: Auth.Environment, now: nat, run: PlaylistRun): RunEnd {
    EndRun(PlaylistFetch(run), env, now, run.refresh)
  }

  // ---------------------------------------------------------------------------
  // How a sub-fetch settles over its runs

  /** How each run of `getSavedTracks()` would end if it were reached. */
  function SavedEnds(env: Auth.Environment, now: nat, runs: seq<SavedRun>): (ends: seq<RunEnd>)
    ensures |ends| == |runs|
    ensures forall i :: 0 <= i < |runs| ==> ends[i] == SavedEnd(env, now, runs[i])
  {
    seq(|runs|, i requires 0 <= i < |runs| => SavedEnd(env, now, runs[i]))
  }

  /** How each run of `getPlaylistTracks()` would end if it were reached. */
  function PlaylistEnds(env: Auth.Environment, now: nat, runs: seq<PlaylistRun>): (ends: seq<RunEnd>)
    ensures |ends| == |runs|
    ensures forall i :: 0 <= i < |runs| ==> ends[i] == PlaylistEnd(env, now, runs[i])
  {
    seq(|runs|, i requires 0 <= i < |runs| => PlaylistEnd(env, now, runs[i]))
  }

  /** The first run that does not end in a restart, or |ends| when every run restarts. */
  function FirstSettled(ends: seq<RunEnd>): (k: nat)
    ensures k <= |ends|
    ensures forall j :: 0 <= j < k ==> ends[j].Restart?
    ensures k < |ends| ==> !ends[k].Restart?
  {
    if |ends| == 0 || !ends[0].Restart? then 0 else 1 + FirstSettled(ends[1..])
  }

  /**
   What a sub-fetch returns, stated over all its runs at once: every run before
   the first one that does not restart is thrown away, and that run decides.
   It fails exactly when it propagates, with the refresh's error; otherwise it
   returns what it gathered, and nothing when every run restarted.
   */
  predicate SettledAt(ends: seq<RunEnd>, r: Result<seq<Track>, Error>) {
    var k := FirstSettled(ends);
    && (r.Failure? <==> k < |ends| && ends[k].Propagate?)
    && (r.Failure? ==> r.error == ends[k].error)
    && (r.Success? && k < |ends| ==> ends[k].Finish? && r.value == ends[k].tracks)
    && (r.Success? && k == |ends| ==> r.value == [])
  }

  /** A restart in front of runs that settle with r settles with r as well. */
  lemma {:induction false} SettledAfterRestart(ends: seq<RunEnd>, r: Result<seq<Track>, Error>)
    requires |ends| > 0 && ends[0].Restart?
    requires SettledAt(ends[1..], r)
    ensures SettledAt(ends, r)
  {
    var k := FirstSettled(ends[1..]);
    assert FirstSettled(ends) == k + 1;
    if k < |ends[1..]| {
      assert ends[k + 1] == ends[1..][k];
    }
  }

  /** `getSavedTracks()` over all its runs: the first run that is not restarted decides. */
  lemma {:induction false} SavedTracksSettle(env: Auth.Environment, now: nat, runs: seq<SavedRun>)
    ensures SettledAt(SavedEnds(env, now, runs), GetSavedTracks(env, now, runs))
    decreases |runs|
  {
    var ends := SavedEnds(env, now, runs);
    if |runs| > 0 && ends[0].Restart? {
      SavedTracksSettle(env, now, runs[1..]);
      assert SavedEnds(env, now, runs[1..]) == ends[1..];
      SettledAfterRestart(ends, GetSavedTracks(env, now, runs[1..]));
    }
  }

  /** `getPlaylistTracks()` over all its runs: the first run that is not restarted decides. */
  lemma {:induction false} PlaylistTracksSettle(env: Auth.Environment, now: nat, runs: seq<PlaylistRun>)
    ensures SettledAt(PlaylistEnds(env, now, runs), GetPlaylistTracks(env, now, runs))
    decreases |runs|
  {
    var ends := PlaylistEnds(env, now, runs);
    if |runs| > 0 && ends[0].Restart? {
      PlaylistTracksSettle(env, now, runs[1..]);
      assert PlaylistEnds(env, now, runs[1..]) == ends[1..];
      SettledAfterRestart(ends, GetPlaylistTracks(env, now, runs[1..]));
    }
  }

  /**
   The token file after `getSavedTracks()`. Every restart follows a refresh
   that rewrote the file, without a refresh token; otherwise it is untouched.
   */
  function SavedTokenFile(env: Auth.Environment, now: nat, file: Auth.TokenFile, runs: seq<SavedRun>): (f: Auth.TokenFile)
    ensures |runs| > 0 && SavedEnd(env, now, runs[0]).Restart? ==> f.TokenFileHolds? && f.record.refreshToken == None
    ensures !(|runs| > 0 && SavedEnd(env, now, runs[0]).Restart?) ==> f == file
    decreases |runs|
  {
    if |runs| == 0 then file
    else match SavedEnd(env, now, runs[0])
      case Restart(written) => SavedTokenFile(env, now, written, runs[1..])
      case _ => file
  }

  /** The token file after `getPlaylistTracks()`, in the same way. */
  function PlaylistTokenFile(env: Auth.Environment, now: nat, file: Auth.TokenFile, runs: seq<PlaylistRun>): (f: Auth.TokenFile)
    ensures |runs| > 0 && PlaylistEnd(env, now, runs[0]).Restart? ==> f.TokenFileHolds? && f.record.refreshToken == None
    ensures !(|runs| > 0 && PlaylistEnd(env, now, runs[0]).Restart?) ==> f == file
    decreases |runs|
  {
    if |runs| == 0 then file
    else match PlaylistEnd(env, now, runs[0])
      case Restart(written) => PlaylistTokenFile(env, now, written, runs[1..])
      case _ => file
  }

  /** A run that ends without an expiry error returns what it gathered, errors or not. */
  lemma SavedRunWithoutExpiry(env: Auth.Environment, now: nat, runs: seq<SavedRun>)
    requires |runs| > 0
    requires SavedWalk(runs[0]).error.None? || !IsTokenExpiry(SavedWalk(runs[0]).error.value)
    ensures GetSavedTracks(env, now, runs) == Success(SavedWalk(runs[0]).tracks)
  {
  }

  /** An expired run followed by a successful refresh is thrown away and the sub-fetch starts over. */
  lemma SavedRestartAfterRefresh(env: Auth.Environment, now: nat, runs: seq<SavedRun>)
    requires |runs| > 0
    requires SavedWalk(runs[0]).error.Some? && IsTokenExpiry(SavedWalk(runs[0]).error.value)
    requires Auth.RefreshFromNewInstance(env, now, runs[0].refresh).Success?
    ensures GetSavedTracks(env, now, runs) == GetSavedTracks(env, now, runs[1..])
  {
  }

  /**
   A first page rejected as expired whose refresh fails, because a required
   setting is unset or the refresh endpoint refuses, makes the sub-fetch throw
   the refresh's error, and `getAllSongs()` returns the empty library.
   */
  lemma SavedRefreshFailureEmptiesLibrary(
    env: Auth.Environment, now: nat, saved: seq<SavedRun>, playlists: seq<PlaylistRun>)
    requires |saved| > 0
    requires SavedWalk(saved[0]).error.Some? && IsTokenExpiry(SavedWalk(saved[0]).error.value)
    requires (exists k :: k in Auth.RequiredSettings && !Auth.IsSet(env, k)) || saved[0].refresh.RefreshDenied?
    ensures GetSavedTracks(env, now, saved) == Failure(Auth.RefreshFromNewInstance(env, now, saved[0].refresh).error)
    ensures GetAllSongs(env, now, saved, playlists) == []
  {
  }

  /** The same for the playlist sub-fetch, whatever the saved-tracks sub-fetch did. */
  lemma PlaylistRefreshFailureEmptiesLibrary(
    env: Auth.Environment, now: nat, saved: seq<SavedRun>, playlists: seq<PlaylistRun>)
    requires |playlists| > 0
    requires PlaylistFetch(playlists[0]).error.Some? && IsTokenExpiry(PlaylistFetch(playlists[0]).error.value)
    requires (exists k :: k in Auth.RequiredSettings && !Auth.IsSet(env, k)) || playlists[0].refresh.RefreshDenied?
    ensures GetPlaylistTracks(env, now, playlists)
            == Failure(Auth.RefreshFromNewInstance(env, now, playlists[0].refresh).error)
    ensures GetAllSongs(env, now, saved, playlists) == []
  {
  }

  /** An expired playlist run followed by a successful refresh is thrown away and the sub-fetch starts over. */
  lemma PlaylistRestartAfterRefresh(env: Auth.Environment, now: nat, runs: seq<PlaylistRun>)
    requires |runs| > 0
    requires PlaylistFetch(runs[0]).error.Some? && IsTokenExpiry(PlaylistFetch(runs[0]).error.value)
    requires Auth.RefreshFromNewInstance(env, now, runs[0].refresh).Success?
    ensures GetPlaylistTracks(env, now, runs) == GetPlaylistTracks(env, now, runs[1..])
  {
  }

  /**
   A first page rejected as expired, a successful refresh, then the whole
   collection served page by page: the result is the whole collection.
   */
  lemma {:induction false} SavedTracksRefreshAndRetry(
    env: Auth.Environment, now: nat, expired: Error, granted: Auth.RefreshReply,
    items: seq<Item>, unused: Auth.RefreshReply)
    requires IsTokenExpiry(expired)
    requires forall k :: k in Auth.RequiredSettings ==> Auth.IsSet(env, k)
    requires granted.RefreshGranted?
    ensures GetSavedTracks(env, now, [SavedRun([PageFailed(expired)], granted), SavedRun(Paged(items, SavedPageSize), unused)])
            == Success(Normalize(items, Saved))
  {
    var runs := [SavedRun([PageFailed(expired)], granted), SavedRun(Paged(items, SavedPageSize), unused)];
    WalkPagedCollection(items, 0, SavedPageSize, Saved);
    assert runs[1..] == [runs[1]];
    assert runs[1..][1..] == [];
  }

  /**
   A playlist run whose listing succeeds and whose `getMe()` calls all succeed
   returns exactly the tracks of the owned playlists, each one's whole walk.
   */
  lemma PlaylistRunOfOwned(env: Auth.Environment, now: nat, runs: seq<PlaylistRun>, i: nat, t: Track)
    requires |runs| > 0 && runs[0].listing.Listed?
    requires var visits := runs[0].listing.visits;
             forall j :: 0 <= j < |visits| ==> visits[j].me.Me?
    ensures GetPlaylistTracks(env, now, runs) == Success(VisitPlaylists(runs[0].listing.visits).tracks)
    ensures var visits := runs[0].listing.visits;
            i < |visits| && Owned(visits[i]) && t in GetTracksFromPlaylist(visits[i].pages) ==>
            t in GetPlaylistTracks(env, now, runs).value
  {
    var visits := runs[0].listing.visits;
    if i < |visits| && Owned(visits[i]) && t in GetTracksFromPlaylist(visits[i].pages) {
      OwnedPlaylistsAllContribute(visits, i, t);
    }
  }

  // ---------------------------------------------------------------------------
  // getAllSongs

  /**
   `getAllSongs()`: saved tracks, then playlist tracks, duplicates removed.
   Anything that propagates out of a sub-fetch yields the empty library.
   */
  function GetAllSongs(env: Auth.Environment, now: nat, saved: seq<SavedRun>, playlists: seq<PlaylistRun>): (songs: seq<Track>)
    ensures DistinctIds(songs)
    ensures GetSavedTracks(env, now, saved).Failure? ==> songs == []
    ensures GetPlaylistTracks(env, now, playlists).Failure? ==> songs == []
  {
    match GetSavedTracks(env, now, saved)
    case Failure(_) => []
    case Success(savedTracks) =>
      match GetPlaylistTracks(env, now, playlists)
      case Failure(_) => []
      case Success(playlistTracks) =>
        FirstOccurrencesDistinct(savedTracks + playlistTracks);
        FirstOccurrences(savedTracks + playlistTracks)
  }

  /**
   The token file after `getAllSongs()`: the playlist sub-fetch runs only when
   the saved-tracks sub-fetch did not throw.
   */
  function AllSongsTokenFile(env: Auth.Environment, now: nat, file: Auth.TokenFile, saved: seq<SavedRun>, playlists: seq<PlaylistRun>): (f: Auth.TokenFile)
    ensures f == file || (f.TokenFileHolds? && f.record.refreshToken == None)
    ensures |saved| > 0 && SavedEnd(env, now, saved[0]).Restart? ==> f.TokenFileHolds? && f.record.refreshToken == None
  {
    var afterSaved := SavedTokenFile(env, now, file, saved);
    if GetSavedTracks(env, now, saved).Failure? then afterSaved
    else PlaylistTokenFile(env, now, afterSaved, playlists)
  }

  /**
   Once a sub-fetch has restarted after an expired token, the next start-up
   loads a credential without a refresh token.
   */
  lemma RestartLosesRefreshToken(
    env: Auth.Environment, now: nat, file: Auth.TokenFile, saved: seq<SavedRun>, playlists: seq<PlaylistRun>, later: nat)
    requires |saved| > 0 && SavedEnd(env, now, saved[0]).Restart?
    ensures var loaded := Auth.LoadTokens(AllSongsTokenFile(env, now, file, saved, playlists), later);
            loaded.Loaded? && loaded.session.refreshToken == None
  {
  }

  /** Index i holds the first track of `songs` with this id. */
  predicate FirstWithId(songs: seq<Track>, i: int, id: string) {
    0 <= i < |songs| && songs[i].id == id && forall j :: 0 <= j < i ==> songs[j].id != id
  }

  /**
   When both sub-fetches succeed, every id found in either survives exactly
   once, and for an id among the saved tracks the saved copy (the first one)
   wins over any playlist copy.
   */
  lemma SavedCopyWins(env: Auth.Environment, now: nat, saved: seq<SavedRun>, playlists: seq<PlaylistRun>)
    requires GetSavedTracks(env, now, saved).Success?
    requires GetPlaylistTracks(env, now, playlists).Success?
    ensures var s := GetSavedTracks(env, now, saved).value;
            var p := GetPlaylistTracks(env, now, playlists).value;
            IdsOf(GetAllSongs(env, now, saved, playlists)) == IdsOf(s + p)
    ensures EarlierWinsIn(GetSavedTracks(env, now, saved).value, GetAllSongs(env, now, saved, playlists))
  {
    var s := GetSavedTracks(env, now, saved).value;
    var p := GetPlaylistTracks(env, now, playlists).value;
    FirstOccurrencesIds(s + p);
    EarlierCopyWins(s, p);
  }

  /** Deduplicating a + b keeps, for every id occurring in a, the first track of a with that id. */
  lemma EarlierCopyWins(a: seq<Track>, b: seq<Track>)
    ensures EarlierWinsIn(a, FirstOccurrences(a + b))
  {
    var all := a + b;
    var r := FirstOccurrences(all);
    FirstOccurrencesKeepFirst(all);
    var idx := KeptIndices(all);
    IdsOfMembers(a);
    forall k | 0 <= k < |r| && r[k].id in IdsOf(a)
      ensures exists i :: 0 <= i < |a| && FirstWithId(a, i, r[k].id) && r[k] == a[i]
    {
      var p0 :| 0 <= p0 < |a| && a[p0].id == r[k].id;
      assert all[p0] == a[p0];
      assert idx[k] <= p0;
      assert all[idx[k]] == a[idx[k]];
      forall j | 0 <= j < idx[k]
        ensures a[j].id != r[k].id
      {
        assert all[j] == a[j];
      }
      assert FirstWithId(a, idx[k], r[k].id);
    }
  }

  /** Every track of `songs` whose id occurs in `earlier` is the first track of `earlier` with that id. */
  predicate EarlierWinsIn(earlier: seq<Track>, songs: seq<Track>) {
    forall k :: 0 <= k < |songs| && songs[k].id in IdsOf(earlier) ==>
      exists i :: 0 <= i < |earlier| && FirstWithId(earlier, i, songs[k].id) && songs[k] == earlier[i]
  }
}

=== FILE: selector.dfy ===
/**
 Song selection (song-selector.js): a random pick among the songs not played
 recently, and the bounded play history kept in a JSON file.

 The history file is a value: the state before an operation goes in and the
 state after comes out. `Math.random()` is a parameter `draw`, standing for
 the value draw / 2^53: the model takes `Math.random()` to return multiples
 of 2^-53.
 */
module Selector {
  import opened Wrappers
  import opened Errors
  import opened Tracks
  import opened Arith

  /** `maxHistorySize` of the constructor. */
  const MaxHistorySize := 100

  /** `getHistoryStats` reports this many most recent plays. */
  const StatsWindow := 10

  /** `Math.random()` is draw / RandomScale for some draw in [0, RandomScale). */
  const RandomScale: nat := 0x20_0000_0000_0000

  const NoSongsMessage := "No songs available for selection"

  /**
   The history file as `loadHistory` finds it: absent, unreadable (an I/O or
   JSON parse failure), or a JSON object whose `played` may be missing.
   */
  datatype HistoryFile = NoFile | Unreadable | Stored(played: Option<seq<string>>)

  /** `loadHistory()`: the stored plays; an absent or unreadable file, or a missing `played`, reads as none. */
  function LoadHistory(file: HistoryFile): (history: seq<string>)
    ensures file.Stored? && file.played.Some? ==> history == file.played.value
    ensures !(file.Stored? && file.played.Some?) ==> history == []
  {
    match file
    case Stored(Some(played)) => played
    case _ => []
  }

  /** The last `n` entries of `s` (all of `s` when it is shorter). */
  function LastN<T>(s: seq<T>, n: nat): (r: seq<T>)
    ensures |r| == Min(|s|, n)
    ensures forall i :: 0 <= i < |r| ==> r[i] == s[|s| - |r| + i]
  {
    if |s| > n then s[|s| - n..] else s
  }

  /** The history after `splice(0, length - maxHistorySize)`: the most recent 100 plays. */
  function Bounded(history: seq<string>): (kept: seq<string>)
    ensures |kept| <= MaxHistorySize
    ensures |history| <= MaxHistorySize ==> kept == history
  {
    LastN(history, MaxHistorySize)
  }

  /** `addToHistory(songId)`: append, drop the oldest plays beyond the bound, write the file back. */
  function AddToHistory(file: HistoryFile, songId: string): (file': HistoryFile)
    ensures file'.Stored? && file'.played.Some?
    ensures 1 <= |file'.played.value| <= MaxHistorySize
    ensures file'.played.value[|file'.played.value| - 1] == songId
  {
    Stored(Some(Bounded(LoadHistory(file) + [songId])))
  }

  /** `clearHistory()`: the file is removed. */
  function ClearHistory(file: HistoryFile): (file': HistoryFile)
    ensures LoadHistory(file') == []
  {
    NoFile
  }

  datatype Stats = Stats(totalPlayed: nat, lastPlayed: seq<string>)

  /** `getHistoryStats()`: the number of stored plays and the ten most recent, oldest first. */
  function GetHistoryStats(file: HistoryFile): (stats: Stats)
    ensures stats.totalPlayed == |LoadHistory(file)|
    ensures |stats.lastPlayed| == Min(|LoadHistory(file)|, StatsWindow)
    ensures forall i :: 0 <= i < |stats.lastPlayed| ==>
              stats.lastPlayed[i] == LoadHistory(file)[|LoadHistory(file)| - |stats.lastPlayed| + i]
  {
    var history := LoadHistory(file);
    Stats(|history|, LastN(history, StatsWindow))
  }

  /** Reading back after a play: the play is recorded and only plays older than the last 100 are lost. */
  lemma AddThenLoad(file: HistoryFile, songId: string)
    ensures LoadHistory(AddToHistory(file, songId)) == Bounded(LoadHistory(file) + [songId])
    ensures |LoadHistory(file)| < MaxHistorySize ==>
              LoadHistory(AddToHistory(file, songId)) == LoadHistory(file) + [songId]
  {
  }

  /** Bounding, then appending and bounding again, is appending and bounding once. */
  lemma LastNSnoc<T>(s: seq<T>, x: T, n: nat)
    requires n > 0
    ensures LastN(LastN(s, n) + [x], n) == LastN(s + [x], n)
  {
    if |s| > n {
      var t := LastN(s, n);
      assert |t + [x]| == n + 1;
      assert LastN(t + [x], n) == (t + [x])[1..];
      assert (t + [x])[1..] == s[|s| - n + 1..] + [x];
      assert (s + [x])[|s| + 1 - n..] == s[|s| - n + 1..] + [x];
    }
  }

  /** Recording the ids one after the other. */
  function AddAll(file: HistoryFile, ids: seq<string>): HistoryFile
    decreases |ids|
  {
    if |ids| == 0 then file else AddToHistory(AddAll(file, ids[..|ids| - 1]), ids[|ids| - 1])
  }

  /** Whatever the number of plays, the file holds exactly the most recent 100 of them. */
  lemma {:induction false} AddAllKeepsMostRecent(file: HistoryFile, ids: seq<string>)
    requires |ids| > 0
    ensures LoadHistory(AddAll(file, ids)) == Bounded(LoadHistory(file) + ids)
    decreases |ids|
  {
    var init := ids[..|ids| - 1];
    var last := ids[|ids| - 1];
    assert ids == init + [last];
    assert LoadHistory(file) + ids == (LoadHistory(file) + init) + [last];
    if |init| == 0 {
      assert LoadHistory(file) + init == LoadHistory(file);
    } else {
      AddAllKeepsMostRecent(file, init);
      LastNSnoc(LoadHistory(file) + init, last, MaxHistorySize);
    }
  }

  // ---------------------------------------------------------------------------
  // Random choice

  /** `Math.floor(Math.random() * n)` with `Math.random()` = draw / RandomScale. */
  function PickIndex(draw: nat, n: nat): (i: nat)
    requires draw < RandomScale && n > 0
    ensures i < n
  {
    MulStrict(draw, RandomScale, n);
    FloorBelow(draw * n, RandomScale, n);
    draw * n / RandomScale
  }

  /** x < n * s means floor(x / s) < n. */
  lemma FloorBelow(x: nat, s: nat, n: nat)
    requires s > 0 && x < n * s
    ensures x / s < n
  {
    var q := x / s;
    assert q * s <= x;
    if q >= n {
      MulMono(n, q, s);
    }
  }

  /** q * s <= x < (q + 1) * s means floor(x / s) == q. */
  lemma FloorIs(x: nat, s: nat, q: nat)
    requires s > 0 && q * s <= x < (q + 1) * s
    ensures x / s == q
  {
    var d := x / s;
    var r := x % s;
    assert x == d * s + r && 0 <= r < s;
    if d < q {
      MulMono(d + 1, q, s);
    } else if d > q {
      MulMono(q + 1, d, s);
    }
  }

  /** Every index can be drawn: no song is unreachable by the choice. */
  lemma EveryIndexReachable(n: nat, i: nat)
    requires 0 < n <= RandomScale && i < n
    ensures exists draw: nat :: draw < RandomScale && PickIndex(draw, n) == i
  {
    // the least draw with draw * n >= i * RandomScale
    var x := i * RandomScale + n - 1;
    var draw: nat := x / n;
    var r := x % n;
    assert x == draw * n + r && r < n;
    assert i * RandomScale <= draw * n < (i + 1) * RandomScale;
    MulMono(i + 1, n, RandomScale);
    assert draw * n < RandomScale * n;
    if draw >= RandomScale {
      MulMono(RandomScale, draw, n);
    }
    FloorIs(draw * n, RandomScale, i);
    assert PickIndex(draw, n) == i;
  }

  /** `songs.filter(song => !history.includes(song.id))`, in order. */
  function Unplayed(songs: seq<Track>, history: seq<string>): (available: seq<Track>)
    ensures |available| <= |songs|
    ensures forall t :: t in available <==> t in songs && t.id !in history
    decreases |songs|
  {
    if |songs| == 0 then []
    else
      var init := Unplayed(songs[..|songs| - 1], history);
      var last := songs[|songs| - 1];
      assert songs == songs[..|songs| - 1] + [last];
      if last.id in history then init else init + [last]
  }

  /**
   `Unplayed` is the order-preserving filter: it keeps a lone song exactly when
   its id is not in the history, and filters a concatenation piece by piece,
   so the available songs keep their relative order.
   */
  lemma {:induction false} UnplayedIsFilter(a: seq<Track>, b: seq<Track>, t: Track, history: seq<string>)
    ensures Unplayed([t], history) == if t.id in history then [] else [t]
    ensures Unplayed(a + b, history) == Unplayed(a, history) + Unplayed(b, history)
    decreases |b|
  {
    assert [t][..0] == [];
    if |b| == 0 {
      assert a + b == a;
    } else {
      var init := b[..|b| - 1];
      var last := b[|b| - 1];
      UnplayedIsFilter(a, init, t, history);
      assert (a + b)[..|a + b| - 1] == a + init;
      assert (a + b)[|a + b| - 1] == last;
      assert b[..|b| - 1] == init;
    }
  }

  datatype Selection = Selection(song: Track, file: HistoryFile)

  /** Whether every song's id is in the history. */
  predicate AllPlayed(songs: seq<Track>, history: seq<string>) {
    forall t :: t in songs ==> t.id in history
  }

  /**
   `selectRandomSong(songs)`: an empty list is an error; otherwise a song not
   in the history is drawn, or, when every song is in it, the history is
   cleared and any song is drawn; the chosen id is then recorded.
   */
  function SelectRandomSong(songs: seq<Track>, file: HistoryFile, draw: nat): (r: Result<Selection, Error>)
    requires draw < RandomScale
    ensures r.Failure? <==> |songs| == 0
    ensures r.Failure? ==> r.error == PlainError(NoSongsMessage)
    ensures r.Success? ==> r.value.song in songs
    ensures r.Success? && !AllPlayed(songs, LoadHistory(file)) ==> r.value.song.id !in LoadHistory(file)
    // the chosen id is recorded: after a reset alone, otherwise appended within the bound
    ensures r.Success? && AllPlayed(songs, LoadHistory(file)) ==> LoadHistory(r.value.file) == [r.value.song.id]
    ensures r.Success? && !AllPlayed(songs, LoadHistory(file)) ==>
              LoadHistory(r.value.file) == Bounded(LoadHistory(file) + [r.value.song.id])
  {
    if |songs| == 0 then Failure(PlainError(NoSongsMessage))
    else
      var history := LoadHistory(file);
      var available := Unplayed(songs, history);
      if |available| == 0 then
        var song := songs[PickIndex(draw, |songs|)];
        Success(Selection(song, AddToHistory(ClearHistory(file), song.id)))
      else
        assert available[PickIndex(draw, |available|)] in available;
        var song := available[PickIndex(draw, |available|)];
        Success(Selection(song, AddToHistory(file, song.id)))
  }

  /**
   Every song that may be chosen is chosen by some draw: an unplayed song, or
   any song once all have been played. The list must not be longer than the
   number of distinct draws, or some positions could never be picked.
   */
  lemma EverySongReachable(songs: seq<Track>, file: HistoryFile, t: Track)
    requires |songs| <= RandomScale
    requires t in songs
    requires AllPlayed(songs, LoadHistory(file)) || t.id !in LoadHistory(file)
    ensures exists draw: nat :: draw < RandomScale && SelectRandomSong(songs, file, draw) == Success(SelectRandomSong(songs, file, draw).value)
                                && SelectRandomSong(songs, file, draw).value.song == t
  {
    var history := LoadHistory(file);
    var available := Unplayed(songs, history);
    var pool := if |available| == 0 then songs else available;
    assert t in pool by {
      if |available| > 0 {
        assert available[0] in available;
        assert !AllPlayed(songs, history);
      }
    }
    var i :| 0 <= i < |pool| && pool[i] == t;
    EveryIndexReachable(|pool|, i);
    var draw: nat :| draw < RandomScale && PickIndex(draw, |pool|) == i;
    assert SelectRandomSong(songs, file, draw).value.song == t;
  }

  /**
   What a selection leaves in the history: after a reset only the chosen id;
   otherwise the previous plays plus the chosen id, bounded to 100.
   */
  lemma SelectionRecordsSong(songs: seq<Track>, file: HistoryFile, draw: nat)
    requires draw < RandomScale && |songs| > 0
    ensures var s := SelectRandomSong(songs, file, draw).value;
            AllPlayed(songs, LoadHistory(file)) ==> LoadHistory(s.file) == [s.song.id]
    ensures var s := SelectRandomSong(songs, file, draw).value;
            !AllPlayed(songs, LoadHistory(file)) ==> LoadHistory(s.file) == Bounded(LoadHistory(file) + [s.song.id])
  {
    var history := LoadHistory(file);
    var available := Unplayed(songs, history);
    if !AllPlayed(songs, history) {
      var t :| t in songs && t.id !in history;
      assert t in available;
    }
  }

  /**
   A song just chosen is not chosen again by the next selection as long as
   some other song has not been played recently.
   */
  lemma NoImmediateRepeat(songs: seq<Track>, file: HistoryFile, first: nat, second: nat)
    requires first < RandomScale && second < RandomScale && |songs| > 0
    requires var s := SelectRandomSong(songs, file, first).value;
             !AllPlayed(songs, LoadHistory(s.file))
    ensures SelectRandomSong(songs, SelectRandomSong(songs, file, first).value.file, second).value.song.id
            != SelectRandomSong(songs, file, first).value.song.id
  {
    var s := SelectRandomSong(songs, file, first).value;
    var h := LoadHistory(s.file);
    assert h[|h| - 1] == s.song.id;
    assert s.song.id in h;
  }

  /** Three songs of which two were played: the third is chosen and appended, whatever the draw. */
  lemma ThirdSongChosen(a: Track, b: Track, c: Track, draw: nat)
    requires draw < RandomScale
    requires a.id != c.id && b.id != c.id
    ensures SelectRandomSong([a, b, c], Stored(Some([a.id, b.id])), draw)
            == Success(Selection(c, Stored(Some([a.id, b.id, c.id]))))
  {
    var songs := [a, b, c];
    var history := [a.id, b.id];
    assert songs[..2] == [a, b];
    assert [a, b][..1] == [a];
    assert [a][..0] == [];
    assert Unplayed([a], history) == [];
    assert Unplayed([a, b], history) == [];
    assert Unplayed(songs, history) == [c];
    assert PickIndex(draw, 1) == 0;
    assert history + [c.id] == [a.id, b.id, c.id];
    assert Bounded(history + [c.id]) == [a.id, b.id, c.id];
  }
}

=== FILE: text.dfy ===
/**
 String helpers the JavaScript source gets from its runtime: decimal digits,
 number rendering and parsing, `startsWith`, `includes` and `Array.join`.
 Strings are sequences of characters; nothing here normalises or folds case.
 */
module Text {

  predicate IsDigit(c: char) {
    '0' <= c <= '9'
  }

  predicate AllDigits(s: string) {
    forall i :: 0 <= i < |s| ==> IsDigit(s[i])
  }

  function DigitChar(d: nat): (c: char)
    requires d < 10
    ensures IsDigit(c)
  {
    ('0' as int + d) as char
  }

  function DigitValue(c: char): (d: nat)
    requires IsDigit(c)
    ensures d < 10 && DigitChar(d) == c
  {
    c as int - '0' as int
  }

  /** The decimal text of `n`, as a template literal renders a non-negative integer. */
  function NatToString(n: nat): (s: string)
    ensures |s| > 0 && AllDigits(s)
    ensures |s| > 1 ==> s[0] != '0'
    decreases n
  {
    if n < 10 then [DigitChar(n)] else NatToString(n / 10) + [DigitChar(n % 10)]
  }

  /** The number a string of decimal digits denotes (leading zeros allowed). */
  function ParseDecimal(s: string): nat
    requires AllDigits(s)
    decreases |s|
  {
    if |s| == 0 then 0 else ParseDecimal(s[..|s| - 1]) * 10 + DigitValue(s[|s| - 1])
  }

  /** Parsing the rendering of a number gives the number back. */
  lemma {:induction false} ParseOfNatToString(n: nat)
    ensures ParseDecimal(NatToString(n)) == n
    decreases n
  {
    var s := NatToString(n);
    if n < 10 {
      assert s[..|s| - 1] == [];
    } else {
      ParseOfNatToString(n / 10);
      assert s[..|s| - 1] == NatToString(n / 10);
    }
  }

  /** The longest prefix of `s` made of decimal digits: what a greedy `\d+` consumes. */
  function DigitRun(s: string): (d: string)
    ensures |d| <= |s| && d == s[..|d|]
    ensures AllDigits(d)
    ensures |d| < |s| ==> !IsDigit(s[|d|])
    decreases |s|
  {
    if |s| > 0 && IsDigit(s[0]) then [s[0]] + DigitRun(s[1..]) else []
  }

  predicate StartsWith(s: string, prefix: string) {
    |prefix| <= |s| && s[..|prefix|] == prefix
  }

  /** `part` occurs in `s` starting at index `i`. */
  predicate OccursAt(s: string, part: string, i: int) {
    0 <= i && i + |part| <= |s| && s[i..i + |part|] == part
  }

  /** JavaScript's `s.includes(part)`, scanning from the left. */
  predicate Contains(s: string, part: string)
    decreases |s|
  {
    StartsWith(s, part) || (|s| > 0 && Contains(s[1..], part))
  }

  /** `Contains` holds exactly when `part` occurs at some index of `s`. */
  lemma {:induction false} ContainsIffOccurs(s: string, part: string)
    ensures Contains(s, part) <==> exists i :: OccursAt(s, part, i)
    decreases |s|
  {
    if |s| > 0 {
      ContainsIffOccurs(s[1..], part);
      if StartsWith(s, part) {
        assert OccursAt(s, part, 0);
      }
      if Contains(s[1..], part) {
        var i :| OccursAt(s[1..], part, i);
        assert s[i + 1..i + 1 + |part|] == s[1..][i..i + |part|];
        assert OccursAt(s, part, i + 1);
      }
      if i :| OccursAt(s, part, i) {
        if i > 0 {
          assert s[1..][i - 1..i - 1 + |part|] == s[i..i + |part|];
          assert OccursAt(s[1..], part, i - 1);
        } else {
          assert StartsWith(s, part);
        }
      }
    } else {
      if Contains(s, part) {
        assert OccursAt(s, part, 0);
      }
      if i :| OccursAt(s, part, i) {
        assert i == 0 && |part| == 0;
        assert StartsWith(s, part);
      }
    }
  }

  /** JavaScript's `parts.join(sep)`. */
  function Join(parts: seq<string>, sep: string): string
    decreases |parts|
  {
    if |parts| == 0 then ""
    else if |parts| == 1 then parts[0]
    else parts[0] + sep + Join(parts[1..], sep)
  }
}

=== FILE: tracks.dfy ===
/**
 Tracks as song-fetcher.js builds them: the normalisation of raw API items and
 `removeDuplicates`, which keeps the first track seen for every id.
 */
module Tracks {
  import opened Wrappers
  import Text

  /** The `source` tag: which sub-fetch produced the track. */
  datatype Source = Saved | Playlist

  datatype Track = Track(
    id: string,
    name: string,
    artist: string,
    album: string,
    url: string,
    previewUrl: Option<string>,
    source: Source)

  /** The fields of a remote track object the fetcher reads; `artists` holds the artists' names. */
  datatype RawTrack = RawTrack(
    id: string,
    name: string,
    artists: seq<string>,
    album: string,
    url: string,
    previewUrl: Option<string>)

  /** One element of a page's `items`; its `track` may be null. */
  datatype Item = Item(track: Option<RawTrack>)

  /** The track record pushed for a non-null item: artist names joined with ", ". */
  function ToTrack(raw: RawTrack, source: Source): (t: Track)
    ensures t.id == raw.id && t.source == source
    ensures t.name == raw.name && t.album == raw.album && t.url == raw.url && t.previewUrl == raw.previewUrl
    ensures t.artist == Text.Join(raw.artists, ", ")
  {
    Track(raw.id, raw.name, Text.Join(raw.artists, ", "), raw.album, raw.url, raw.previewUrl, source)
  }

  /** The tracks of a page's items, in order, skipping items whose track is null. */
  function Normalize(items: seq<Item>, source: Source): (tracks: seq<Track>)
    ensures |tracks| <= |items|
    ensures forall i :: 0 <= i < |tracks| ==> tracks[i].source == source
    decreases |items|
  {
    if |items| == 0 then [] else Kept(items[0], source) + Normalize(items[1..], source)
  }

  /** What one item contributes: its track, or nothing when the track is null. */
  function Kept(item: Item, source: Source): (r: seq<Track>)
    ensures |r| <= 1
  {
    if item.track.Some? then [ToTrack(item.track.value, source)] else []
  }

  /** Normalising two runs of items one after the other is normalising them together. */
  lemma {:induction false} NormalizeAppend(a: seq<Item>, b: seq<Item>, source: Source)
    ensures Normalize(a + b, source) == Normalize(a, source) + Normalize(b, source)
    decreases |a|
  {
    if |a| > 0 {
      var ab := a + b;
      assert ab[0] == a[0] && ab[1..] == a[1..] + b;
      NormalizeAppend(a[1..], b, source);
      var h := Kept(a[0], source);
      var x := Normalize(a[1..], source);
      var y := Normalize(b, source);
      assert Normalize(ab, source) == h + (x + y);
      assert Normalize(a, source) == h + x;
      assert h + (x + y) == (h + x) + y;
    } else {
      assert a + b == b;
    }
  }

  /** A track comes out of normalisation exactly when a non-null item carries it. */
  lemma {:induction false} NormalizeMembers(items: seq<Item>, source: Source, t: Track)
    ensures t in Normalize(items, source) <==>
            exists i :: 0 <= i < |items| && items[i].track.Some? && t == ToTrack(items[i].track.value, source)
    decreases |items|
  {
    if |items| > 0 {
      NormalizeMembers(items[1..], source, t);
      if exists i :: 0 <= i < |items[1..]| && items[1..][i].track.Some? && t == ToTrack(items[1..][i].track.value, source) {
        var i :| 0 <= i < |items[1..]| && items[1..][i].track.Some? && t == ToTrack(items[1..][i].track.value, source);
        assert items[i + 1] == items[1..][i];
      }
      if exists i :: 0 <= i < |items| && items[i].track.Some? && t == ToTrack(items[i].track.value, source) {
        var i :| 0 <= i < |items| && items[i].track.Some? && t == ToTrack(items[i].track.value, source);
        if i > 0 {
          assert items[1..][i - 1] == items[i];
        }
      }
    }
  }

  // ---------------------------------------------------------------------------
  // removeDuplicates

  /** The ids occurring in `songs`. */
  function IdsOf(songs: seq<Track>): set<string>
    decreases |songs|
  {
    if |songs| == 0 then {} else IdsOf(songs[..|songs| - 1]) + {songs[|songs| - 1].id}
  }

  /** The ids are exactly those of the tracks. */
  lemma {:induction false} IdsOfMembers(songs: seq<Track>)
    ensures forall i :: 0 <= i < |songs| ==> songs[i].id in IdsOf(songs)
    ensures forall id :: id in IdsOf(songs) ==> exists i :: 0 <= i < |songs| && songs[i].id == id
    decreases |songs|
  {
    if |songs| > 0 {
      var init := songs[..|songs| - 1];
      IdsOfMembers(init);
      forall id | id in IdsOf(songs)
        ensures exists i :: 0 <= i < |songs| && songs[i].id == id
      {
        if id in IdsOf(init) {
          var i :| 0 <= i < |init| && init[i].id == id;
          assert songs[i] == init[i];
        } else {
          assert songs[|songs| - 1].id == id;
        }
      }
    }
  }

  /**
   The reference definition: keep a track exactly when no earlier track has its
   id. Stated on prefixes, as the input is consumed from the front.
   */
  function FirstOccurrences(songs: seq<Track>): seq<Track>
    decreases |songs|
  {
    if |songs| == 0 then []
    else
      var init := songs[..|songs| - 1];
      var last := songs[|songs| - 1];
      FirstOccurrences(init) + (if last.id in IdsOf(init) then [] else [last])
  }

  predicate DistinctIds(songs: seq<Track>) {
    forall i, j :: 0 <= i < j < |songs| ==> songs[i].id != songs[j].id
  }

  /**
   `removeDuplicates(songs)`: a Map from id to track filled in input order,
   whose `set` is skipped for an id already present; its values in insertion
   order are the result. The map is the pair (seen ids, values in order).
   */
  method RemoveDuplicates(songs: seq<Track>) returns (unique: seq<Track>)
    ensures unique == FirstOccurrences(songs)
    ensures DistinctIds(unique)
    ensures IdsOf(unique) == IdsOf(songs)
  {
    var seen: set<string> := {};
    unique := [];
    for i := 0 to |songs|
      invariant seen == IdsOf(songs[..i])
      invariant unique == FirstOccurrences(songs[..i])
    {
      assert songs[..i + 1][..i] == songs[..i];
      if songs[i].id !in seen {
        seen := seen + {songs[i].id};
        unique := unique + [songs[i]];
      }
    }
    assert songs[..|songs|] == songs;
    FirstOccurrencesIds(songs);
    FirstOccurrencesDistinct(songs);
  }

  lemma IdsOfSnoc(songs: seq<Track>, t: Track)
    ensures IdsOf(songs + [t]) == IdsOf(songs) + {t.id}
  {
    assert (songs + [t])[..|songs|] == songs;
  }

  /** Every id of the input survives, and no other. */
  lemma {:induction false} FirstOccurrencesIds(songs: seq<Track>)
    ensures IdsOf(FirstOccurrences(songs)) == IdsOf(songs)
    decreases |songs|
  {
    if |songs| > 0 {
      var init := songs[..|songs| - 1];
      var last := songs[|songs| - 1];
      var prev := FirstOccurrences(init);
      FirstOccurrencesIds(init);
      if last.id !in IdsOf(init) {
        assert FirstOccurrences(songs) == prev + [last];
        IdsOfSnoc(prev, last);
      } else {
        assert FirstOccurrences(songs) == prev;
      }
    }
  }

  /** Each id appears at most once in the result. */
  lemma {:induction false} FirstOccurrencesDistinct(songs: seq<Track>)
    ensures DistinctIds(FirstOccurrences(songs))
    decreases |songs|
  {
    if |songs| > 0 {
      var init := songs[..|songs| - 1];
      var last := songs[|songs| - 1];
      var prev := FirstOccurrences(init);
      FirstOccurrencesDistinct(init);
      if last.id !in IdsOf(init) {
        FirstOccurrencesIds(init);
        IdsOfMembers(prev);
        assert FirstOccurrences(songs) == prev + [last];
      } else {
        assert FirstOccurrences(songs) == prev;
      }
    }
  }

  /** The input positions FirstOccurrences keeps, in increasing order. */
  function KeptIndices(songs: seq<Track>): (idx: seq<nat>)
    ensures |idx| == |FirstOccurrences(songs)|
    decreases |songs|
  {
    if |songs| == 0 then []
    else
      var init := songs[..|songs| - 1];
      KeptIndices(init) + (if songs[|songs| - 1].id in IdsOf(init) then [] else [|songs| - 1])
  }

  /**
   `r` is taken from `songs` at the increasing positions `idx`, and each taken
   track is the first track of `songs` with its id.
   */
  predicate TakesFirstOccurrences(songs: seq<Track>, r: seq<Track>, idx: seq<nat>) {
    && |idx| == |r|
    && (forall k :: 0 <= k < |r| ==> idx[k] < |songs| && r[k] == songs[idx[k]])
    && (forall k, j :: 0 <= k < |r| && 0 <= j < idx[k] ==> songs[j].id != r[k].id)
    && (forall k, l :: 0 <= k < l < |idx| ==> idx[k] < idx[l])
  }

  /**
   The result is a subsequence of the input, taken at increasing positions, and
   each kept track is the first track of the input with its id.
   */
  lemma {:induction false} FirstOccurrencesKeepFirst(songs: seq<Track>)
    ensures TakesFirstOccurrences(songs, FirstOccurrences(songs), KeptIndices(songs))
    decreases |songs|
  {
    if |songs| > 0 {
      var init := songs[..|songs| - 1];
      var last := songs[|songs| - 1];
      var prev := FirstOccurrences(init);
      var pidx := KeptIndices(init);
      var r := FirstOccurrences(songs);
      var idx := KeptIndices(songs);
      FirstOccurrencesKeepFirst(init);
      if last.id !in IdsOf(init) {
        assert r == prev + [last];
        assert idx == pidx + [|songs| - 1];
        IdsOfMembers(init);
        forall k | 0 <= k < |r|
          ensures idx[k] < |songs| && r[k] == songs[idx[k]]
        {
          if k < |prev| {
            assert r[k] == prev[k] && idx[k] == pidx[k];
            assert pidx[k] < |init|;
            assert prev[k] == init[pidx[k]];
            assert songs[pidx[k]] == init[pidx[k]];
          }
        }
        forall k, j | 0 <= k < |r| && 0 <= j < idx[k]
          ensures songs[j].id != r[k].id
        {
          assert songs[j] == init[j];
          if k < |prev| {
            assert r[k] == prev[k] && idx[k] == pidx[k];
          } else {
            assert init[j].id in IdsOf(init);
          }
        }
        forall k, l | 0 <= k < l < |r|
          ensures idx[k] < idx[l]
        {
          if l == |prev| {
            assert idx[k] == pidx[k] && pidx[k] < |init|;
          } else {
            assert idx[k] == pidx[k] && idx[l] == pidx[l];
          }
        }
      } else {
        assert r == prev;
        assert idx == pidx;
      }
    }
  }

  lemma SplitLast<T>(s: seq<T>)
    requires |s| > 0
    ensures s == s[..|s| - 1] + [s[|s| - 1]]
  {
  }

  /** A sequence whose ids are already distinct is left unchanged. */
  lemma {:induction false} FirstOccurrencesOfDistinct(songs: seq<Track>)
    requires DistinctIds(songs)
    ensures FirstOccurrences(songs) == songs
    decreases |songs|
  {
    if |songs| > 0 {
      var init := songs[..|songs| - 1];
      assert forall i :: 0 <= i < |init| ==> init[i] == songs[i];
      FirstOccurrencesOfDistinct(init);
      IdsOfMembers(init);
      assert songs[|songs| - 1].id !in IdsOf(init);
      SplitLast(songs);
    }
  }

  /** Removing duplicates twice is removing them once. */
  lemma FirstOccurrencesIdempotent(songs: seq<Track>)
    ensures FirstOccurrences(FirstOccurrences(songs)) == FirstOccurrences(songs)
  {
    FirstOccurrencesDistinct(songs);
    FirstOccurrencesOfDistinct(FirstOccurrences(songs));
  }
}

=== FILE: wrappers.dfy ===
/**
 The two failure-carrying datatypes the rest of the model returns:
 - Option<T>: a value that may be absent (a missing file field, an unset setting);
 - Result<T, E>: either a value or the error a JavaScript function would throw.
 */
module Wrappers {

  /** A value that may be absent, in place of JavaScript's `undefined`. */
  datatype Option<+T> = None | Some(value: T) {

    /** The value, or `fallback` when there is none (JavaScript's `x || fallback`). */
    function GetOr(fallback: T): T {
      match this
      case Some(v) => v
      case None => fallback
    }
  }

  /** Either the value an operation returns or the error it throws. */
  datatype Result<+T, +E> = Success(value: T) | Failure(error: E)
}
